=== FILE: README.md ===
# ArduinoMesh protocol engine, modelled in Dafny

A model of the protocol core of ArduinoMesh, a small mesh-networking
library for nRF24L01 radios.  Each node has an address.  A node announces
itself by broadcasting peer-discovery messages.  It keeps a table of the
peers it has heard from, and drops those that stay silent for too long.
It sends messages of up to 255 bytes, cut into frames of at most 32
bytes.  On receipt it reassembles them, keyed by sender address and
message id.

The project is in seven modules:

- `Wire` (wire.dfy): integer widths, the protocol constants of
  MeshBase.cpp, the frame header as a record, packets as the radio
  delivers them, radio writes and application callbacks.  The header
  size `H` and the discovery payload size `DISCOVERY_SIZE` are abstract
  constants.  The only constraint is `0 < H <= 30`, so that a 255-byte
  message needs at most 128 frames.
- `LinkedLists` (linked_list.dfy): the doubly-linked list of
  LinkedList.h as a class over `Node` objects.  The ghost sequence
  `nodes` is the chain from `first` to `last`.  `Valid()` says that
  `length` counts it, that `next` and `prev` link neighbours both ways,
  and that no node occurs twice.
- `Fragmenter` (fragmenter.dfy): the frames SendMessage writes for a
  payload (`Plan`), and what they guarantee: how many there are, their
  sizes, their `split_part` and `split_more` fields, and that their
  payloads concatenate to the input.
- `Reassembly` (reassembly.dfy): on values, covering:
  - a Message under reassembly;
  - `FindStream`, `Message::AddPart` and `Message::IsDone`;
  - the effect of one received frame on the assembly list (`Accept`,
    `Receive`).
- `PeerTable` (peer_table.dfy): the peer table on values: discovery
  (`Discover`) and the ageing sweep of `Update` (`Age`).
- `RoundTrip` (round_trip.dfy): sender against receiver.  The frames of
  one message, received in any order, rebuild it exactly once.
- `MeshBase` (mesh_base.dfy): the node as objects.  A `MeshBase` class
  holds the peer list, the assembly list, the message counter, the log
  of frames written and the log of callbacks.  `Peer` and `Message` are
  classes too.  Each method is proved against the value-level functions
  above, through the views `Table()` (the peer list as `PeerRec` values)
  and `Store()` (the assembly list as `MessageState` values).

I/O is modelled by logs and parameters.  A radio write is an entry
appended to `sent`, giving the pipe and the frame.  A callback
(`OnMessage`, `OnNewPeer`) is an entry appended to `events`.  The random
addresses `ChooseAddress` tries are the parameter `draws`.  The
non-protocol fields of a discovery payload are the parameter `fields`.

The project verifies with every file given to Dafny together:

```
dafny verify --resource-limit 2000000 --verification-time-limit 0 --warn-contradictory-assumptions *.dfy
```

## Model

| member | source | states |
|---|---|---|
| Wire.PipesDistinct | MeshBase.cpp:12-13 | No broadcast pipe is a node's pipe. Distinct groups have distinct broadcast pipes, and distinct nodes have distinct pipes. |
| LinkedLists.Node.constructor | LinkedList.h:13 | A new node holds its item and links nowhere. |
| LinkedLists.LinkedList.constructor | LinkedList.h:7 | A new list is empty: `first`, `last` null, `length` 0, and valid. |
| LinkedLists.LinkedList.Add | LinkedList.h:16-27 | Appends a fresh node at the tail and the item at the end of the items. `length` grows by one and the list stays valid. On an empty list `first == last ==` the new node. Otherwise `first` is unchanged, the old `last` links forward to the new node and the new node back to it. |
| LinkedLists.LinkedList.GetItem | LinkedList.h:29-37 | Returns null exactly when the item is not in the list. Otherwise it returns the node of its first occurrence. Nothing changes. |
| LinkedLists.LinkedList.RemoveItem | LinkedList.h:39-42 | An item not in the list leaves the list as it was. Otherwise the node of its first occurrence is dropped, with the other items in unchanged order. The list stays valid. |
| LinkedLists.LinkedList.RemoveNode | LinkedList.h:44-59 | A null node returns null and changes nothing. For a member node: the node sequence and the items lose exactly that position, and `length` drops by one. It returns the removed node's old successor. Removing the head moves `first` to its successor, and removing the tail moves `last` back. Removing the sole node leaves `first == last == null` and `length == 0`. The list stays valid. |
| LinkedLists.LinkedList.Unlink | LinkedList.h:47-58 | The non-null case of Remove(Node*): the same removal and returned successor, with validity kept. |
| LinkedLists.LinkedList.Splice | LinkedList.h:47-54 | After the four pointer updates, the chain without the node is well linked from `first` to `last`. The node sequence and `length` are not yet changed. |
| Fragmenter.FrameCountFits | MeshBase.cpp:217 | A payload of at most 255 bytes needs at most 128 frames, so `num` fits `split_part`'s 7 bits. |
| Fragmenter.Fragment | MeshBase.cpp:220-223 | Frame `num` is a frame of at most P payload bytes. Its header is the template with `split_part = num`. |
| Fragmenter.NumPacketsCovers | MeshBase.cpp:217 | `num_pkts` is at least one. The last frame starts within the payload or at its end, and P bytes from there reach past the end. |
| Fragmenter.Plan | MeshBase.cpp:208-223 | There are `length / P + 1` frames. Each has at most 32 bytes, and all share the header written before the loop (`Template`: protocol version 1, ttl 0, the message id, type and sender). Frame `k` has `split_part = k`. |
| Fragmenter.PlanSlice | MeshBase.cpp:220-223 | Frame `k` carries bytes `[k*P, min(k*P + P, length))` of the input. Its `split_more` is `remaining_length > P`. |
| Fragmenter.PlanCoversPayload | MeshBase.cpp:217-223 | The frames' payloads, concatenated in order, are exactly the input. |
| Fragmenter.PlanTerminal | MeshBase.cpp:217-222 | When `length` is not a nonzero multiple of P, every frame but the last has `split_more` set and the last does not. |
| Fragmenter.PlanWholeFrames | MeshBase.cpp:217-222 | When `length = kP` with `k >= 1`, frame `k-1` is full and already terminal. An extra empty terminal frame `k` follows, and all frames before `k-1` have `split_more` set. |
| Reassembly.Write | MeshBase.cpp:102-108 | The buffer grows to `max(data_used, start + len)`. The payload lands at `start`, and every byte outside that range keeps its old value, or 0 where the buffer grew. |
| Reassembly.MessageState.AddPart | MeshBase.cpp:88-114 | Covers the buffer, the block count and the header: (1) the payload lands at `part_num * P`; (2) `data_used` becomes `max(old, part_num * P + len)`; (3) other bytes are kept; (4) `blocks_recieved` grows by exactly one; (5) only a terminal fragment rewrites the header, to `split_more = false, split_part = part_num`. |
| Reassembly.AddPartDone | MeshBase.cpp:116-135 | When `IsDone` holds after a fragment. After a non-terminal one: exactly when the terminal fragment numbered k came earlier and at least k + 1 fragments have arrived, so a done Message stays done. After the terminal fragment numbered k: exactly when at least k fragments came before it. |
| Reassembly.Fresh | MeshBase.cpp:150 | A fresh Message belongs to the frame's stream, holds no bytes and no blocks, and is not done. |
| Reassembly.AddPartKeepsStream | MeshBase.cpp:79-86 | Adding a fragment never moves a Message to another stream: `FindStream` compares sender and message id, which AddPart keeps. |
| Reassembly.FindIndex | MeshBase.cpp:79-86 | The position of the first Message whose sender and message id both match the header. No earlier Message matches, and the position is the length of the list when there is none. |
| Reassembly.Accept | MeshBase.cpp:148-164 | A frame completes a Message exactly when its stream's Message, after the fragment is added, is done. The completed value is that Message. |
| Reassembly.AcceptKeepsOthers | MeshBase.cpp:148-163 | A frame leaves every Message of other streams in the list, in order and unchanged. |
| Reassembly.AcceptStream | MeshBase.cpp:148-163 | No stream ever has two Messages in the list. A completed stream has none left. An incomplete one has exactly one, which is not done. |
| Reassembly.ReceiveEffect | MeshBase.cpp:141-164 | A frame shorter than a header changes nothing. A frame keeps every Message of other streams and one Message per stream. It completes its stream's Message exactly when adding the fragment makes it done, and then no Message of that stream is left. |
| PeerTable.Lookup | MeshBase.cpp:257-268 | The position of the first peer with the address, or the table's length. No earlier peer has it. |
| PeerTable.LookupKnown | MeshBase.cpp:257-268 | Lookup finds a position exactly when some peer has the address. |
| PeerTable.Discover | MeshBase.cpp:167-192 | A payload of the wrong size or version changes nothing. An unknown sender is appended with time 0 and reported as new. A known sender keeps its place and count, with time reset to 0, and is not reported. |
| PeerTable.DiscoverUnknown | MeshBase.cpp:176-187 | For an unknown sender the table is the old one plus `PeerRec(from, 0)`. |
| PeerTable.DiscoverKnown | MeshBase.cpp:188-191 | For a known sender only its entry changes, to time 0. |
| PeerTable.AgeOneSteps | MeshBase.cpp:65-73 | One peer in one pass: it stays, with the same address and time plus one, exactly when that time is below PEER_TIMEOUT. Otherwise it is removed. |
| PeerTable.Age | MeshBase.cpp:62-74 | After a sweep, no table is longer and every remaining peer has time below PEER_TIMEOUT. |
| PeerTable.AgeAppend | MeshBase.cpp:62-74 | The sweep goes peer by peer: sweeping `a + b` is sweeping `a`, then `b`. |
| PeerTable.AgeMembers | MeshBase.cpp:65-73 | A peer survives the sweep exactly when its time plus one is below PEER_TIMEOUT, and it comes out with that time. |
| PeerTable.AgeUnique | MeshBase.cpp:62-74 | A table with each address once keeps that property through the sweep. |
| PeerTable.DiscoverKeeps | MeshBase.cpp:167-192 | Discovery keeps each address once and every peer below PEER_TIMEOUT. |
| PeerTable.SilentTwice | MeshBase.cpp:62-74 | Two sweeps with no discovery between them drop every peer. |
| PeerTable.HeardSurvivesOneSweep | MeshBase.cpp:190 | A peer just heard from survives the next sweep with time 1, and the sweep after that removes it. |
| RoundTrip.Run | MeshBase.cpp:141-165 | Frames handed to HandlePacket one after another: one completion slot per frame. |
| RoundTrip.RunAppend | MeshBase.cpp:141-165 | Running two batches of frames one after the other is running them together. |
| RoundTrip.ReceiveAtEnd | MeshBase.cpp:148-164 | A frame of a stream held only by the last Message in the list, or by none, grows or starts that Message. The Message leaves the list when it is done, and every other Message stays. |
| RoundTrip.RoundTripAnyOrder | MeshBase.cpp:88-165 | Take a `length` that is not a nonzero multiple of P, a list with no Message of that stream, and every planned frame delivered once in any order. Only the last frame delivered completes anything. It completes a Message with exactly the input bytes, the terminal header and one block per frame, and the list ends as it began. |
| RoundTrip.StaleFrame | MeshBase.cpp:148-154 | An empty terminal frame numbered above 0, for a stream with no Message, starts a Message that is not done and stays in the list. |
| RoundTrip.StaleCompletesEarly | MeshBase.cpp:148-164 | The stale Message of a P-byte message (terminal `split_part` 1, one block) is completed by a full non-terminal frame 0 of a later message with the same sender and id. The completed Message holds only that frame's P bytes, and the list is left empty. |
| RoundTrip.StaleCompletesShort | MeshBase.cpp:148-164 | The same stale Message is completed by the only frame of a later message shorter than P bytes with the same sender and id. The completed Message has terminal `split_part` 0, that frame's bytes followed by the stale buffer's tail (P bytes in all), and two blocks. The list is left empty. |
| RoundTrip.WholeFramesLeaveStale | MeshBase.cpp:217-222 | When `length = kP`, the first `k` frames (in any order) complete the input exactly once. The trailing empty frame then leaves a Message of the same stream in the list that is not done. |
| MeshBase.Peer.constructor | MeshBase.h:17 | A new peer has the given address and time 0. |
| MeshBase.Message.constructor | MeshBase.cpp:150 | A new Message holds the frame's header, an empty buffer and no blocks. |
| MeshBase.Message.AddPart | MeshBase.cpp:88-114 | The Message's header, buffer and block count become what `MessageState.AddPart` says. |
| MeshBase.Handed | MeshBase.cpp:154-162 | For a completed Message: a discovery message changes the table as `Discover` says, and appends exactly `OnNewPeer(sender)` when the sender is new and the payload acceptable, and nothing otherwise. Any other type leaves the table and adds one `OnMessage` with the Message's header and bytes. |
| MeshBase.HandleKeeps | MeshBase.cpp:141-192 | One received packet keeps at most one Message per stream in the assembly list. The peer table it is handed to keeps each address once and every time below PEER_TIMEOUT. |
| MeshBase.MeshBase.constructor | MeshBase.cpp:19-24 | Address 0, so not yet `IsReady`; counter 0, empty lists and logs, valid. |
| MeshBase.MeshBase.GetPeer | MeshBase.cpp:257-268 | Returns null exactly when no peer has the address. Otherwise it returns the first peer that has it. Nothing changes. |
| MeshBase.MeshBase.HandlePeerDiscovery | MeshBase.cpp:167-192 | The peer table becomes what `Discover` says. `OnNewPeer` is logged once exactly for a new peer. |
| MeshBase.MeshBase.AddPeer | MeshBase.cpp:185-187 | The table gains `PeerRec(a, 0)` at the end and `OnNewPeer(a)` is logged. |
| MeshBase.MeshBase.SetTime | MeshBase.cpp:190 | Only the peer at that position changes, to the new time. |
| MeshBase.MeshBase.UnlinkPeer | MeshBase.cpp:70 | The node at that position leaves the peer list, the table loses exactly that entry, and the successor is returned. |
| MeshBase.MeshBase.SweepPeers | MeshBase.cpp:59-76 | After the sweep the peer table is `Age` of the old one: each time plus one, those reaching PEER_TIMEOUT removed, and survivors in order. |
| MeshBase.MeshBase.SweepOne | MeshBase.cpp:63-74 | One pass of the sweep loop moves the table from "first `i` peers swept" to "first `i+1` peers swept". It returns the node the loop continues with. |
| MeshBase.MeshBase.RetireOrPass | MeshBase.cpp:66-72 | A peer whose time has reached PEER_TIMEOUT is unlinked and the loop continues with its successor. Otherwise the loop moves past it. Either way the table is "first `i+1` peers swept". |
| MeshBase.MeshBase.TickPeer | MeshBase.cpp:65 | Only the current peer's time goes up by one. |
| MeshBase.MeshBase.FindMessage | MeshBase.cpp:148 | Returns null exactly when no Message matches. Otherwise it returns the first match. |
| MeshBase.MeshBase.JoinStream | MeshBase.cpp:148-152 | Returns the stream's Message if found, or a fresh one appended for the header. The assembly list otherwise stays the same. |
| MeshBase.MeshBase.AppendMessage | MeshBase.cpp:150-151 | A fresh Message for the header is appended. |
| MeshBase.MeshBase.AddPartAt | MeshBase.cpp:153 | Only that Message changes, as `MessageState.AddPart` says. |
| MeshBase.MeshBase.UnlinkMessage | MeshBase.cpp:163 | The assembly list loses exactly that Message. |
| MeshBase.MeshBase.AddToStream | MeshBase.cpp:148-153 | The stream's Message, found or appended, has the fragment added. The list is updated in place. |
| MeshBase.MeshBase.Complete | MeshBase.cpp:154-164 | A done Message is handed on as `Handed` says, then unlinked. |
| MeshBase.MeshBase.Dispatch | MeshBase.cpp:155-162 | The switch on the type: the peer table and callbacks change as `Handed` says, and the assembly list is untouched. |
| MeshBase.MeshBase.HandlePacket | MeshBase.cpp:141-165 | The assembly list becomes what `Receive` says. With no completion the peer table and callbacks are unchanged. A completed Message is handed on exactly once, as `Handed` says. Both lists stay valid. |
| MeshBase.MeshBase.SendMessage | MeshBase.cpp:206-239 | Writes exactly the frames of `Plan`, in order, to the node's pipe or the group's broadcast pipe. All of them carry the old message id, and the counter advances by one mod 256. |
| MeshBase.MeshBase.SendPeerDiscovery | MeshBase.cpp:194-204 | Broadcasts to the discovery group a type-0 message whose payload starts with protocol version 1. A receiving node accepts that payload (`Acceptable`). |
| MeshBase.MeshBase.ChooseAddress | MeshBase.cpp:246-255 | The chosen address belongs to no known peer. It is the first draw that does not. |

## Left out

- The RF24 radio driver (`Begin`, the receive drain loop of `Update`, pipe opening and listening) is not modelled. A write is an entry in `sent`, and a received frame is a `Packet` argument.
- The receive buffer in `Update` (MeshBase.cpp:53) is `MAX_PAYLOAD_SIZE` bytes long but is read with up to 32. The model takes frames of at most 32 bytes and does not reproduce that overflow.
- The scheduling in `Update` is left out: the `millis()` timers, the periodic discovery and sweep, and the uptime field. The sweep and the discovery broadcast are separate methods the caller invokes.
- `Serial` logging is not modelled.
- `random(0xFFFF)` is the `draws` parameter, each draw between 0 and 0xFFFE (`Draw`). Address 0 is possible, as in the source.
- MeshBase.MeshBase.ChooseAddress: it requires that some draw is unknown, because the source's loop runs until a random draw is unknown.
- MeshBase.MeshBase.SendPeerDiscovery: the discovery payload's layout beyond its version byte is not modelled; the remaining bytes are the `fields` parameter.
- The header's bit-exact layout and the pointer casts are not modelled. `MessageHeader` and `PeerDiscoveryMessage` are records with abstract sizes.
- `malloc`, `realloc`, `free` and `memcpy` are modelled by the buffer as a sequence whose length is `data_used`. Bytes no fragment has written yet are 0 in the model (`Zeros`). Only `Write` and the stale-Message lemmas `StaleFrame`, `WholeFramesLeaveStale`, `StaleCompletesEarly` and `StaleCompletesShort` mention that fill; the round trip does not depend on it.
- MeshBase.MeshBase.HandlePacket: it requires `Receivable`, so that AddPart's 8-bit offsets (MeshBase.cpp:90-91) do not wrap. Frames the source itself plans always meet this.
- MeshBase.Message.AddPart: it requires `part_num * P + len <= 255` for the same reason.
- LinkedLists.LinkedList.RemoveNode: returns the saved successor `ret`. The source returns `n->next` after `delete n` (LinkedList.h:55-58), a read of freed memory that the model cannot express.
- `length` (uint16) of both lists is unbounded in the model. No code bounds either list: the assembly list is never aged, so a lost frame or a trailing empty frame leaves a Message there for good, and the peer list grows by one for every new sender. Wrapping the 16-bit counter would take 65536 live nodes, far more than the node's heap holds. A peer's `time` stays below PEER_TIMEOUT = 2 (`Recent`).
- `blocksReceived` is a `nat`: the width of `blocks_recieved` is not shown in any file of the source.
- `H` is at most 30. The real header is 8 bytes. With `H = 31` (P = 1), `num_pkts` (uint8) would wrap to 0 for a 255-byte payload and `split_part` would wrap from frame 128 on; that wrap is not modelled.
- `current_msg_id` is a function-level static in the source, shared by every MeshBase object. The model keeps it as a field of the one node.
- `LinkedList::Find` is not part of this model. `FindMessage` performs the search MeshBase.cpp:148 asks of it, with `FindStream`.
- The four-argument `SendMessage` (MeshBase.cpp:241-244) is `SendMessage` with `isBroadcast` false.
- `OnLostPeer` is never called by the source's sweep, and the model does not call it.
- MeshBase.h is an older revision. Only Peer's initial time 0 and `IsReady` (address nonzero, `MeshBase.MeshBase.IsReady`) are taken from it.
- Publisher.h is an example application and is not modelled.
- A message whose length is a nonzero multiple of P leaves a Message behind in the assembly list when its trailing empty frame arrives after the others, as with in-order delivery. This is modelled as written and shown by `WholeFramesLeaveStale`. After a P-byte message, the next message of the same sender that reuses the id (once the 8-bit counter wraps) completes on its first frame. If it is longer than P bytes, the completed Message holds only its first P bytes (`StaleCompletesEarly`). If it is shorter than P bytes, the completed Message holds its bytes followed by the stale buffer's unwritten tail, P bytes in all (`StaleCompletesShort`). That tail is indeterminate memory in the source and zeros in the model.
- RoundTrip.RoundTripAnyOrder: proved for every delivery order that is a permutation. Lost or duplicated frames are not covered.

=== FILE: fragmenter.dfy ===
/**
 * The sender's side of fragmentation (MeshBase::SendMessage): which frames
 * a payload of at most 255 bytes is cut into.  The method that writes them
 * out is MeshBase.SendMessage; this module is the plan it follows and what
 * the plan guarantees.
 */
module Fragmenter {
  import opened Wire

  function Min(a: int, b: int): int { if a < b then a else b }

  /** `num * P`, the byte offset of frame `num`, built up one frame at a time. */
  function Offset(num: nat): nat
  {
    if num == 0 then 0 else Offset(num - 1) + P
  }

  lemma {:induction false} OffsetIsProduct(num: nat)
    ensures Offset(num) == num * P
  {
    if num > 0 {
      OffsetIsProduct(num - 1);
    }
  }

  lemma {:induction false} OffsetMono(a: nat, b: nat)
    requires a <= b
    ensures Offset(a) + (b - a) * 2 <= Offset(b)
  {
    if a < b {
      OffsetMono(a, b - 1);
    }
  }

  /** `length / P` whole frames fit in `length`, and one more frame covers it. */
  lemma DivP(length: nat)
    ensures Offset(length / P) <= length < Offset(length / P) + P
    ensures length % P == 0 <==> Offset(length / P) == length
  {
    OffsetIsProduct(length / P);
  }

  /** Offset of frame `num` of a payload of `length` bytes lies inside it. */
  lemma OffsetInside(num: nat, length: nat)
    requires num <= length / P
    ensures Offset(num) <= length
  {
    OffsetMono(num, length / P);
    DivP(length);
  }

  /** A payload of at most 255 bytes needs at most 128 frames, so split_part fits in 7 bits. */
  lemma FrameCountFits(length: nat)
    requires length <= 255
    ensures length / P <= 127
  {
    DivP(length);
    if length / P > 127 {
      OffsetMono(0, length / P);
    }
  }

  /** num_pkts: how many frames SendMessage writes for `length` bytes. */
  function NumPackets(length: nat): nat
  {
    length / P + 1
  }

  /**
   * There is at least one frame; the last starts inside the payload (or at
   * its end), and P bytes from there reach past its end.
   */
  lemma NumPacketsCovers(length: nat)
    ensures NumPackets(length) >= 1
    ensures Offset(NumPackets(length) - 1) <= length < Offset(NumPackets(length) - 1) + P
  {
    DivP(length);
  }

  /** The header written into the frame buffer before the loop. */
  function Template(addressFrom: u32, msgType: u8, msgId: u8): Header
  {
    Header(PROTOCOL_VERSION, 0, msgId, false, 0, msgType, addressFrom)
  }

  /** Frame `num`: split_part is `num`, split_more says more than P bytes remain. */
  function Fragment(template: Header, data: seq<u8>, num: nat): (f: Packet)
    requires |data| <= 255 && num < NumPackets(|data|)
    ensures f.Frame? && |f.payload| <= P
    ensures f.header == template.(splitPart := num, splitMore := f.header.splitMore)
  {
    OffsetInside(num, |data|);
    FrameCountFits(|data|);
    var offset := Offset(num);
    var remaining := |data| - offset;
    Frame(template.(splitPart := num, splitMore := remaining > P),
          data[offset .. offset + Min(remaining, P)])
  }

  /** The frames SendMessage writes, in order. */
  function Plan(addressFrom: u32, msgType: u8, msgId: u8, data: seq<u8>): (plan: seq<Packet>)
    requires |data| <= 255
    ensures |plan| == |data| / P + 1
    ensures forall k :: 0 <= k < |plan| ==>
      && plan[k].Frame?
      && plan[k].Valid()
      && plan[k].Length() <= MAX_PACKET_SIZE
      && plan[k].header == Template(addressFrom, msgType, msgId).(splitPart := k, splitMore := plan[k].header.splitMore)
  {
    var template := Template(addressFrom, msgType, msgId);
    seq(NumPackets(|data|), num requires 0 <= num < NumPackets(|data|) => Fragment(template, data, num))
  }

  /** Frame `k`'s payload is the `k`-th P-byte window of the input, cut short at its end. */
  lemma PlanSlice(addressFrom: u32, msgType: u8, msgId: u8, data: seq<u8>, k: nat)
    requires |data| <= 255 && k < |data| / P + 1
    ensures Offset(k) <= |data|
    ensures Plan(addressFrom, msgType, msgId, data)[k].payload == Window(data, k)
    ensures Plan(addressFrom, msgType, msgId, data)[k].header.splitMore == (|data| - Offset(k) > P)
  {
    OffsetInside(k, |data|);
  }

  function PayloadOf(p: Packet): seq<u8>
  {
    match p
    case Runt(_) => []
    case Frame(_, payload) => payload
  }

  /** The payloads of `pkts`, concatenated in order. */
  function Payloads(pkts: seq<Packet>): seq<u8>
  {
    if pkts == [] then [] else PayloadOf(pkts[0]) + Payloads(pkts[1..])
  }

  /** The bytes of `data` that frame `k` carries: P bytes from its offset, cut short at the end. */
  function Window(data: seq<u8>, k: nat): seq<u8>
    requires Offset(k) <= |data|
  {
    data[Offset(k) .. Min(Offset(k) + P, |data|)]
  }

  /** `data` cut into P-byte pieces, the last one shorter than P (possibly empty). */
  function Chunks(data: seq<u8>): seq<seq<u8>>
    decreases |data|
  {
    if |data| < P then [data] else [data[..P]] + Chunks(data[P..])
  }

  function Flatten(ss: seq<seq<u8>>): seq<u8>
  {
    if ss == [] then [] else ss[0] + Flatten(ss[1..])
  }

  lemma {:induction false} FlattenChunks(data: seq<u8>)
    ensures Flatten(Chunks(data)) == data
    decreases |data|
  {
    if |data| >= P {
      FlattenChunks(data[P..]);
      assert data[..P] + data[P..] == data;
    }
  }

  lemma {:induction false} OffsetStep(a: nat, b: nat)
    requires a < b
    ensures Offset(a) + P <= Offset(b)
  {
    if a + 1 < b {
      OffsetStep(a, b - 1);
    }
  }

  lemma {:induction false} ChunksCount(data: seq<u8>)
    ensures |Chunks(data)| == |data| / P + 1
    decreases |data|
  {
    DivP(|data|);
    if |data| >= P {
      ChunksCount(data[P..]);
      var n := |data| / P;
      var m := (|data| - P) / P;
      DivP(|data| - P);
      assert Offset(m + 1) == Offset(m) + P;
      if m + 1 < n {
        OffsetStep(m + 1, n);
      } else if n < m + 1 {
        OffsetStep(n, m + 1);
      }
    }
  }

  /** A slice of a suffix is a slice of the whole, shifted by the dropped prefix. */
  lemma DropSlice(s: seq<u8>, d: nat, a: nat, b: nat)
    requires d <= |s| && a <= b <= |s| - d
    ensures s[d..][a..b] == s[d + a .. d + b]
  {
  }

  lemma {:induction false} ChunkAt(data: seq<u8>, k: nat)
    requires k < |Chunks(data)|
    ensures Offset(k) <= |data|
    ensures Chunks(data)[k] == Window(data, k)
    decreases |data|
  {
    if k > 0 {
      var rest := data[P..];
      ChunkAt(rest, k - 1);
      var lo := Offset(k - 1);
      assert Offset(k) == lo + P;
      assert Chunks(data) == [data[..P]] + Chunks(rest);
      assert Chunks(data)[k] == Chunks(rest)[k - 1];
      assert Min(lo + P, |rest|) + P == Min(Offset(k) + P, |data|);
      DropSlice(data, P, lo, Min(lo + P, |rest|));
    }
  }

  /** Round trip on the sender's side: the payloads of the plan, concatenated, are the input. */
  lemma PlanCoversPayload(addressFrom: u32, msgType: u8, msgId: u8, data: seq<u8>)
    requires |data| <= 255
    ensures Payloads(Plan(addressFrom, msgType, msgId, data)) == data
  {
    var plan := Plan(addressFrom, msgType, msgId, data);
    ChunksCount(data);
    forall k | 0 <= k < |plan|
      ensures PayloadOf(plan[k]) == Chunks(data)[k]
    {
      PlanSlice(addressFrom, msgType, msgId, data, k);
      ChunkAt(data, k);
    }
    PayloadsFlatten(plan, Chunks(data));
    FlattenChunks(data);
  }

  lemma {:induction false} PayloadsFlatten(pkts: seq<Packet>, ss: seq<seq<u8>>)
    requires |pkts| == |ss|
    requires forall k :: 0 <= k < |pkts| ==> PayloadOf(pkts[k]) == ss[k]
    ensures Payloads(pkts) == Flatten(ss)
  {
    if pkts != [] {
      PayloadsFlatten(pkts[1..], ss[1..]);
    }
  }

  /** `length` is a whole, nonzero number of frames: the case with a trailing empty frame. */
  predicate FillsLastFrame(length: nat)
  {
    length > 0 && length % P == 0
  }

  /**
   * When the payload does not end exactly on a frame boundary (or is empty),
   * every frame but the last says more follow, and the last one does not.
   */
  lemma PlanTerminal(addressFrom: u32, msgType: u8, msgId: u8, data: seq<u8>)
    requires |data| <= 255 && !FillsLastFrame(|data|)
    ensures var plan := Plan(addressFrom, msgType, msgId, data);
      && !plan[|plan| - 1].header.splitMore
      && forall k :: 0 <= k < |plan| - 1 ==> plan[k].header.splitMore
  {
    var plan := Plan(addressFrom, msgType, msgId, data);
    var n := |data| / P;
    DivP(|data|);
    PlanSlice(addressFrom, msgType, msgId, data, n);
    forall k | 0 <= k < n
      ensures plan[k].header.splitMore
    {
      OffsetMono(k + 1, n);
      PlanSlice(addressFrom, msgType, msgId, data, k);
    }
  }

  /**
   * When the payload ends exactly on a frame boundary after `m` frames, frame
   * `m - 1` already says no more follow, and an extra empty frame `m`, also
   * terminal, comes after it.
   */
  lemma PlanWholeFrames(addressFrom: u32, msgType: u8, msgId: u8, data: seq<u8>)
    requires |data| <= 255 && FillsLastFrame(|data|)
    ensures var plan := Plan(addressFrom, msgType, msgId, data);
      && |plan| >= 2
      && !plan[|plan| - 2].header.splitMore
      && |plan[|plan| - 2].payload| == P
      && !plan[|plan| - 1].header.splitMore
      && plan[|plan| - 1].payload == []
      && forall k :: 0 <= k < |plan| - 2 ==> plan[k].header.splitMore
  {
    var plan := Plan(addressFrom, msgType, msgId, data);
    var m := |data| / P;
    DivP(|data|);
    assert m >= 1;
    PlanSlice(addressFrom, msgType, msgId, data, m);
    PlanSlice(addressFrom, msgType, msgId, data, m - 1);
    forall k | 0 <= k < m - 1
      ensures plan[k].header.splitMore
    {
      OffsetMono(k + 2, m);
      PlanSlice(addressFrom, msgType, msgId, data, k);
    }
  }
}

=== FILE: linked_list.dfy ===
/**
 * The intrusive-style doubly-linked list of LinkedList.h.  Every node
 * holds a reference to an item it does not own; the list keeps `first`,
 * `last` and a `length` counter.  The ghost sequence `nodes` is the chain
 * from `first` to `last`, and `Items()` the item references in list order.
 */
module LinkedLists {

  /** Position of the first occurrence of `x` in `s`, or `|s|` when there is none. */
  function FirstIndexOf<T(==)>(s: seq<T>, x: T): (k: nat)
    ensures k <= |s|
    ensures k < |s| ==> s[k] == x
    ensures forall j :: 0 <= j < k ==> s[j] != x
  {
    if s == [] then 0
    else if s[0] == x then 0
    else 1 + FirstIndexOf(s[1..], x)
  }

  /** `s` without its element at position `k`. */
  function Without<T>(s: seq<T>, k: nat): (r: seq<T>)
    requires k < |s|
    ensures |r| == |s| - 1
    ensures forall i :: 0 <= i < k ==> r[i] == s[i]
    ensures forall i :: k <= i < |r| ==> r[i] == s[i + 1]
  {
    s[..k] + s[k + 1..]
  }

  ghost predicate Distinct<T>(s: seq<T>)
  {
    forall i, j :: 0 <= i < j < |s| ==> s[i] != s[j]
  }

  lemma DistinctWithout<T>(s: seq<T>, k: nat)
    requires Distinct(s) && k < |s|
    ensures Distinct(Without(s, k))
  {
  }

  /** Removing position `k` of a distinct sequence removes the only occurrence of `s[k]`. */
  lemma WithoutWithin<T>(s: seq<T>, k: nat, within: set<T>)
    requires Distinct(s) && k < |s|
    requires forall i :: 0 <= i < |s| ==> s[i] in within
    ensures Distinct(Without(s, k))
    ensures forall i :: 0 <= i < |s| - 1 ==> Without(s, k)[i] in within - {s[k]}
  {
  }

  lemma FirstIndexOfDistinct<T>(s: seq<T>, k: nat)
    requires Distinct(s) && k < |s|
    ensures FirstIndexOf(s, s[k]) == k
  {
  }

  /** The items the nodes of `ns` hold, in the same order. */
  ghost function ItemsOf<T>(ns: seq<Node<T>>): (r: seq<T>)
  {
    seq(|ns|, i requires 0 <= i < |ns| => ns[i].item)
  }

  lemma ItemsOfWithout<T>(ns: seq<Node<T>>, k: nat)
    requires k < |ns|
    ensures ItemsOf(Without(ns, k)) == Without(ItemsOf(ns), k)
  {
  }

  lemma ItemsOfAppend<T>(ns: seq<Node<T>>, n: Node<T>)
    ensures ItemsOf(ns + [n]) == ItemsOf(ns) + [n.item]
  {
  }

  /**
   * `ns` is the chain from `first` to `last`: `next` and `prev` link
   * neighbours both ways, and nothing links past either end.
   */
  ghost predicate Chain<T>(ns: seq<Node<T>>, first: Node?<T>, last: Node?<T>)
    reads ns
  {
    && (if ns == [] then first == null && last == null
        else first == ns[0] && last == ns[|ns| - 1]
             && ns[0].prev == null && ns[|ns| - 1].next == null)
    && (forall i :: 0 <= i < |ns| - 1 ==> ns[i].next == ns[i + 1])
    && (forall i :: 0 < i < |ns| ==> ns[i].prev == ns[i - 1])
  }

  class Node<T> {
    const item: T
    var next: Node?<T>
    var prev: Node?<T>

    constructor (item: T)
      ensures this.item == item && next == null && prev == null
    {
      this.item := item;
      next := null;
      prev := null;
    }
  }

  class LinkedList<T(==)> {
    var last: Node?<T>
    var first: Node?<T>
    /** The source's uint16_t counter; never near its limit, so kept unbounded. */
    var length: nat

    ghost var nodes: seq<Node<T>>
    ghost var Repr: set<Node<T>>

    /**
     * `length` counts the chain from `first`; `first`, `last` and `length`
     * are all empty together; `next` and `prev` link neighbours both ways;
     * no node occurs twice.
     */
    ghost predicate Valid()
      reads this, Repr
    {
      && (forall i :: 0 <= i < |nodes| ==> nodes[i] in Repr)
      && length == |nodes|
      && Chain(nodes, first, last)
      && Distinct(nodes)
    }

    /** The item references, from `first` to `last`. */
    ghost function Items(): seq<T>
      reads this
    {
      ItemsOf(nodes)
    }

    constructor ()
      ensures Valid()
      ensures nodes == [] && Repr == {}
      ensures first == null && last == null && length == 0
    {
      last := null;
      first := null;
      length := 0;
      nodes := [];
      Repr := {};
    }

    /** Appends `item` in a new node at the tail. */
    method Add(item: T)
      requires Valid()
      modifies this, Repr
      ensures Valid()
      ensures last != null && fresh(last)
      ensures nodes == old(nodes) + [last] && Repr == old(Repr) + {last}
      ensures Items() == old(Items()) + [item]
      ensures length == old(length) + 1
      ensures old(last) == null ==> first == last
      ensures old(last) != null ==> first == old(first) && old(last).next == last && last.prev == old(last)
    {
      var n := new Node(item);
      if last == null {
        last := n;
        first := n;
      } else {
        last.next := n;
        n.prev := last;
        last := n;
      }
      length := length + 1;
      ItemsOfAppend(nodes, n);
      nodes := nodes + [n];
      Repr := Repr + {n};
    }

    /** The first node whose item is `item` itself, or null. */
    method GetItem(item: T) returns (n: Node?<T>)
      requires Valid()
      ensures n == null <==> item !in Items()
      ensures n != null ==> n == nodes[FirstIndexOf(Items(), item)]
    {
      n := first;
      ghost var k := 0;
      while n != null
        invariant k <= |nodes|
        invariant n == if k < |nodes| then nodes[k] else null
        invariant forall j :: 0 <= j < k ==> nodes[j].item != item
        decreases |nodes| - k
      {
        if n.item == item {
          assert Items()[k] == item;
          return;
        }
        n := n.next;
        k := k + 1;
      }
    }

    /**
     * Unlinks `n` and returns its successor; null when `n` is null.
     * `n` must be one of this list's nodes.
     */
    method RemoveNode(n: Node?<T>) returns (next: Node?<T>)
      requires Valid()
      requires n != null ==> n in nodes
      modifies this, Repr
      ensures Valid()
      ensures n == null ==> next == null && nodes == old(nodes) && Repr == old(Repr)
      ensures n != null ==>
        var k := FirstIndexOf(old(nodes), n);
        && k < |old(nodes)|
        && nodes == Without(old(nodes), k)
        && Items() == Without(old(Items()), k)
        && next == (if k + 1 < |old(nodes)| then old(nodes)[k + 1] else null)
        && length == old(length) - 1
        && Repr == old(Repr) - {n}
        && (old(first) == n ==> first == old(n.next))
        && (old(last) == n ==> last == old(n.prev))
        && (|old(nodes)| == 1 ==> first == null && last == null && length == 0)
    {
      if n == null {
        return null;
      }
      next := Unlink(n);
    }

    /** Remove(Node*) for a node of this list: its neighbours are linked to each other. */
    method Unlink(n: Node<T>) returns (next: Node?<T>)
      requires Valid() && n in nodes
      modifies this, Repr
      ensures Valid()
      ensures var k := FirstIndexOf(old(nodes), n);
        && k < |old(nodes)|
        && nodes == Without(old(nodes), k)
        && Items() == Without(old(Items()), k)
        && next == (if k + 1 < |old(nodes)| then old(nodes)[k + 1] else null)
        && length == old(length) - 1
        && Repr == old(Repr) - {n}
    {
      ghost var ns := nodes;
      ghost var k := FirstIndexOf(ns, n);
      next := Splice(n, k);
      length := length - 1;
      nodes := Without(ns, k);
      WithoutWithin(ns, k, Repr);
      Repr := Repr - {n};
      ItemsOfWithout(ns, k);
    }

    /**
     * The pointer surgery of Remove(Node*) on the node at position `k`:
     * `first`, `last` and the neighbours' links now skip it.
     */
    method Splice(n: Node<T>, ghost k: nat) returns (next: Node?<T>)
      requires Valid() && k < |nodes| && nodes[k] == n
      modifies this, Repr
      ensures nodes == old(nodes) && Repr == old(Repr) && length == old(length)
      ensures Chain(Without(nodes, k), first, last)
      ensures next == if k + 1 < |nodes| then nodes[k + 1] else null
    {
      ghost var ns := nodes;
      assert n.prev == if k == 0 then null else ns[k - 1];
      assert n.next == if k == |ns| - 1 then null else ns[k + 1];
      if first == n {
        first := n.next;
      }
      if last == n {
        last := n.prev;
      }
      if n.prev != null {
        n.prev.next := n.next;
      }
      if n.next != null {
        n.next.prev := n.prev;
      }
      next := n.next;
      assert forall i :: 0 <= i < |ns| && i + 1 != k ==> ns[i].next == old(ns[i].next);
      assert forall i :: 0 <= i < |ns| && i != k + 1 ==> ns[i].prev == old(ns[i].prev);
    }

    /** Unlinks the first node holding `item`; no effect when there is none. */
    method RemoveItem(item: T)
      requires Valid()
      modifies this, Repr
      ensures Valid()
      ensures Repr <= old(Repr)
      ensures
        var k := FirstIndexOf(old(Items()), item);
        && (k == |old(Items())| ==> nodes == old(nodes))
        && (k < |old(Items())| ==> nodes == Without(old(nodes), k) && Items() == Without(old(Items()), k))
    {
      var n := GetItem(item);
      if n != null {
        FirstIndexOfDistinct(nodes, FirstIndexOf(Items(), item));
      }
      var _ := RemoveNode(n);
    }
  }
}

=== FILE: mesh_base.dfy ===
/**
 * The node itself (MeshBase.cpp): the Peer and Message objects, and the
 * MeshBase object whose methods update its peer list, its assembly list
 * of Messages under reassembly, its message counter and what it has sent
 * and reported.  Each method is proved against the value-level functions
 * of Fragmenter, Reassembly and PeerTable, through the views `Table()`
 * and `Store()`.
 *
 * The radio is a log: `sent` holds every frame written with the pipe it
 * was written to.  The application callbacks are a log too: `events`.
 */
module MeshBase {
  import opened Wire
  import opened Fragmenter
  import opened Reassembly
  import opened PeerTable
  import opened LinkedLists

  /** A value random(0xFFFF) returns: 0 up to 0xFFFE. */
  type Draw = x: int | 0 <= x < 0xFFFF

  /** A peer: its address, and the sweeps since it was last heard from. */
  class Peer {
    const address: u32
    var time: nat

    constructor (address: u32)
      ensures this.address == address && time == 0
    {
      this.address := address;
      time := 0;
    }
  }

  /** A message under reassembly: header, buffer (its length is data_used) and blocks received. */
  class Message {
    var header: Header
    var data: seq<u8>
    var blocksReceived: nat

    constructor (header: Header)
      ensures State() == Reassembly.Fresh(header)
    {
      this.header := header;
      data := [];
      blocksReceived := 0;
    }

    function State(): MessageState
      reads this
    {
      MessageState(header, data, blocksReceived)
    }

    /** Message::AddPart: copies `payload` in at `partNum * P`, growing the buffer as needed. */
    method AddPart(payload: seq<u8>, partNum: u7, moreParts: bool)
      requires Offset(partNum) + |payload| <= 255
      modifies this
      ensures State() == old(State()).AddPart(payload, partNum, moreParts)
    {
      OffsetIsProduct(partNum);
      var startPos := partNum * P;
      var endPos := startPos + |payload|;
      if endPos > |data| {
        data := data + Zeros(endPos - |data|);
      }
      data := data[..startPos] + payload + data[endPos..];
      blocksReceived := blocksReceived + 1;
      if !moreParts {
        header := header.(splitMore := false, splitPart := partNum);
      }
    }
  }

  /** The peers `ps` refer to, as values. */
  ghost function RecsOf(ps: seq<Peer>): (r: seq<PeerRec>)
    reads ps
    ensures |r| == |ps|
    ensures forall i :: 0 <= i < |ps| ==> r[i] == PeerRec(ps[i].address, ps[i].time)
  {
    seq(|ps|, i reads ps requires 0 <= i < |ps| => PeerRec(ps[i].address, ps[i].time))
  }

  /** The Messages `ms` refer to, as values. */
  ghost function StatesOf(ms: seq<Message>): (r: seq<MessageState>)
    reads ms
    ensures |r| == |ms|
    ensures forall i :: 0 <= i < |ms| ==> r[i] == ms[i].State()
  {
    seq(|ms|, i reads ms requires 0 <= i < |ms| => ms[i].State())
  }

  /** The frames of `pkts`, each written to `pipe`. */
  function Sends(pipe: int, pkts: seq<Packet>): (r: seq<Transmission>)
    ensures |r| == |pkts|
    ensures forall i :: 0 <= i < |pkts| ==> r[i] == Transmission(pipe, pkts[i])
  {
    seq(|pkts|, i requires 0 <= i < |pkts| => Transmission(pipe, pkts[i]))
  }

  lemma SuffixAfterStep<T>(s: seq<T>, t: seq<T>, j: nat, i: nat)
    requires j < |s| && i <= |t| && s[j..] == t[i..]
    ensures s[j + 1..] == t[i + 1..]
  {
    assert s[j + 1..] == s[j..][1..];
  }

  lemma SuffixAfterRemove<T>(s: seq<T>, t: seq<T>, j: nat, i: nat)
    requires j < |s| && i <= |t| && s[j..] == t[i..]
    ensures Without(s, j)[j..] == t[i + 1..]
  {
    assert Without(s, j)[j..] == s[j + 1..];
    SuffixAfterStep(s, t, j, i);
  }

  /** The sweep of the first `i + 1` peers: that of the first `i`, then peer `i`. */
  lemma AgeSnoc(T: seq<PeerRec>, i: nat)
    requires i < |T|
    ensures Age(T[..i + 1]) == Age(T[..i]) + AgeOne(T[i])
  {
    assert T[..i + 1] == T[..i] + [T[i]];
    AgeAppend(T[..i], [T[i]]);
    assert [T[i]][1..] == [];
  }

  /** One peer of the sweep, on the table as it is part way through. */
  lemma SweepStep(T: seq<PeerRec>, i: nat)
    requires i < |T|
    ensures var j := |Age(T[..i])|;
      var ticked := (Age(T[..i]) + T[i..])[j := T[i].(time := T[i].time + 1)];
      && (T[i].time + 1 >= PEER_TIMEOUT ==> Without(ticked, j) == Age(T[..i + 1]) + T[i + 1..] && |Age(T[..i + 1])| == j)
      && (T[i].time + 1 < PEER_TIMEOUT ==> ticked == Age(T[..i + 1]) + T[i + 1..] && |Age(T[..i + 1])| == j + 1)
  {
    AgeSnoc(T, i);
    var A := Age(T[..i]);
    var bumped := T[i].(time := T[i].time + 1);
    var ticked := (A + T[i..])[|A| := bumped];
    assert T[i..] == [T[i]] + T[i + 1..];
    assert ticked == A + [bumped] + T[i + 1..];
    if T[i].time + 1 >= PEER_TIMEOUT {
      assert Without(ticked, |A|) == A + T[i + 1..];
    }
  }

  lemma ItemOfNode<T>(ns: seq<Node<T>>, i: nat)
    requires i < |ns|
    ensures ItemsOf(ns)[i] == ns[i].item
  {
  }

  lemma SweepDone(T: seq<PeerRec>, i: nat)
    requires i == |T|
    ensures Age(T[..i]) + T[i..] == Age(T)
  {
    assert T[..i] == T;
  }

  /** A Message found at `k`, or appended there, then updated to `m`: Put. */
  lemma JoinPut(store: seq<MessageState>, k: nat, x: MessageState, m: MessageState)
    requires k <= |store|
    ensures k < |(if k < |store| then store else store + [x])|
    ensures (if k < |store| then store else store + [x])[k := m] == Put(store, k, m)
  {
    if k == |store| {
      assert (store + [x])[k := m] == store + [m];
    }
  }

  /** ... and then unlinked again: Drop. */
  lemma PutDrop(store: seq<MessageState>, k: nat, m: MessageState)
    requires k <= |store|
    ensures k < |Put(store, k, m)|
    ensures Without(Put(store, k, m), k) == Drop(store, k)
  {
    if k == |store| {
      assert Without(store + [m], k) == store;
    }
  }

  /** Frame `num` of the plan, with its offset written as the product SendMessage computes. */
  lemma FrameAt(template: Header, data: seq<u8>, num: nat)
    requires |data| <= 255 && num < |data| / P + 1
    ensures num < 0x80 && num * P <= |data|
    ensures Plan(template.addressFrom, template.msgType, template.msgId, data)[num] ==
      Frame(Template(template.addressFrom, template.msgType, template.msgId).(splitPart := num, splitMore := |data| - num * P > P),
            data[num * P .. num * P + Min(|data| - num * P, P)])
  {
    FrameCountFits(|data|);
    OffsetIsProduct(num);
    OffsetInside(num, |data|);
  }

  lemma SendsStep(pipe: int, plan: seq<Packet>, num: nat)
    requires num < |plan|
    ensures Sends(pipe, plan[..num + 1]) == Sends(pipe, plan[..num]) + [Transmission(pipe, plan[num])]
  {
    assert plan[..num + 1] == plan[..num] + [plan[num]];
  }

  /** The peer table and the callbacks made so far. */
  datatype Handing = Handing(table: seq<PeerRec>, events: seq<Event>)

  /**
   * HandlePacket's dispatch of a completed Message `m`, on the type of the
   * frame that completed it: a discovery message goes to the peer table
   * (Discover), reporting a new peer; any other is reported to the
   * application.
   */
  function Handed(table: seq<PeerRec>, events: seq<Event>, msgType: u8, m: MessageState): (r: Handing)
    ensures msgType != TYPE_PEER_DISCOVERY ==> r == Handing(table, events + [OnMessage(m.header, m.data)])
    ensures msgType == TYPE_PEER_DISCOVERY ==>
      && r.table == Discover(table, m.header.addressFrom, m.data).table
      && r.events == events +
           if Acceptable(m.data) && !Known(table, m.header.addressFrom)
           then [OnNewPeer(m.header.addressFrom)] else []
  {
    if msgType == TYPE_PEER_DISCOVERY then
      var d := Discover(table, m.header.addressFrom, m.data);
      Handing(d.table, events + if d.newPeer then [OnNewPeer(m.header.addressFrom)] else [])
    else
      Handing(table, events + [OnMessage(m.header, m.data)])
  }

  /**
   * One received packet keeps the node's invariants on values: no stream
   * has two Messages in the assembly list, and the peer table a completed
   * Message is handed to keeps each address once and every peer heard from
   * within PEER_TIMEOUT sweeps.
   */
  lemma HandleKeeps(store: seq<MessageState>, table: seq<PeerRec>, events: seq<Event>, p: Packet)
    requires Receivable(p) && UniqueStreams(store)
    requires UniqueAddresses(table) && Recent(table)
    ensures var o := Receive(store, p);
      && UniqueStreams(o.store)
      && (o.completed.Some? ==>
            && p.Frame?
            && UniqueAddresses(Handed(table, events, p.header.msgType, o.completed.value).table)
            && Recent(Handed(table, events, p.header.msgType, o.completed.value).table))
  {
    if p.Frame? {
      AcceptStream(store, p.header, p.payload);
      var o := Receive(store, p);
      if o.completed.Some? {
        DiscoverKeeps(table, o.completed.value.header.addressFrom, o.completed.value.data);
      }
    }
  }

  class MeshBase {
    var address: u32
    /** The message id counter of SendMessage. */
    var currentMsgId: u8
    /** Callbacks made into the application, oldest first. */
    var events: seq<Event>
    /** Frames written to the radio, oldest first. */
    var sent: seq<Transmission>
    const peers: LinkedList<Peer>
    const assemblyList: LinkedList<Message>

    /** IsReady: the node has chosen an address. */
    predicate IsReady()
      reads this
    {
      address != 0
    }

    /** Both lists are well linked and refer to each Peer and each Message once. */
    ghost predicate Valid()
      reads peers, peers.Repr, assemblyList, assemblyList.Repr
    {
      PeersValid() && MessagesValid()
    }

    ghost predicate PeersValid()
      reads peers, peers.Repr
    {
      peers.Valid() && Distinct(peers.Items())
    }

    ghost predicate MessagesValid()
      reads assemblyList, assemblyList.Repr
    {
      assemblyList.Valid() && Distinct(assemblyList.Items())
    }

    /** The peer list as values, first to last. */
    ghost function Table(): seq<PeerRec>
      reads peers, peers.Items()
    {
      RecsOf(peers.Items())
    }

    /** The assembly list as values, first to last. */
    ghost function Store(): seq<MessageState>
      reads assemblyList, assemblyList.Items()
    {
      StatesOf(assemblyList.Items())
    }

    constructor ()
      ensures Valid()
      ensures Table() == [] && Store() == []
      ensures address == 0 && currentMsgId == 0 && events == [] && sent == []
      ensures !IsReady()
    {
      address := 0;
      currentMsgId := 0;
      events := [];
      sent := [];
      peers := new LinkedList();
      assemblyList := new LinkedList();
    }

    /** GetPeer: the first peer with address `a`, or null. */
    method GetPeer(a: u32) returns (p: Peer?)
      requires PeersValid()
      ensures p == null <==> !Known(Table(), a)
      ensures p != null ==> p == peers.Items()[Lookup(Table(), a)] && p.address == a
    {
      var current := peers.first;
      ghost var k := 0;
      while current != null
        invariant k <= |peers.nodes|
        invariant current == if k < |peers.nodes| then peers.nodes[k] else null
        invariant forall j :: 0 <= j < k ==> Table()[j].address != a
        decreases |peers.nodes| - k
      {
        if current.item.address == a {
          assert peers.Items()[k] == current.item && Table()[k].address == a;
          return current.item;
        }
        current := current.next;
        k := k + 1;
      }
      return null;
    }

    /**
     * HandlePeerDiscovery: the peer table becomes what `Discover` says, and
     * a new peer is reported to the application.
     */
    method HandlePeerDiscovery(msg: Header, buff: seq<u8>)
      requires PeersValid()
      modifies this`events, peers, peers.Repr, peers.Items()
      ensures PeersValid()
      ensures var d := Discover(old(Table()), msg.addressFrom, buff);
        && Table() == d.table
        && events == old(events) + (if d.newPeer then [OnNewPeer(msg.addressFrom)] else [])
    {
      if |buff| != DISCOVERY_SIZE || buff[0] != 1 {
        return;
      }
      var peer := GetPeer(msg.addressFrom);
      if peer == null {
        DiscoverUnknown(Table(), msg.addressFrom, buff);
        AddPeer(msg.addressFrom);
      } else {
        DiscoverKnown(Table(), msg.addressFrom, buff);
        SetTime(peer, Lookup(Table(), msg.addressFrom), 0);
      }
    }

    /** A new Peer for `a`, appended to the peer list and reported to the application. */
    method AddPeer(a: u32)
      requires PeersValid()
      modifies this`events, peers, peers.Repr
      ensures PeersValid()
      ensures Table() == old(Table()) + [PeerRec(a, 0)]
      ensures events == old(events) + [OnNewPeer(a)]
    {
      var p := new Peer(a);
      ghost var ps := peers.Items();
      peers.Add(p);
      assert peers.Items() == ps + [p];
      events := events + [OnNewPeer(a)];
    }

    /** The peer at position `k` of the list gets time `t`; no other peer changes. */
    method SetTime(peer: Peer, ghost k: nat, t: nat)
      requires PeersValid() && k < |peers.Items()| && peer == peers.Items()[k]
      modifies peer
      ensures PeersValid()
      ensures Table() == old(Table())[k := PeerRec(peer.address, t)]
      ensures peer.time == t
    {
      peer.time := t;
      assert forall i :: 0 <= i < |peers.Items()| && i != k ==> peers.Items()[i] != peer;
    }

    /**
     * Unlinks the node at position `j` of the peer list, part way through
     * the sweep: the nodes from `j` on are `N[i..]`, those the sweep has
     * not reached yet.  Returns the successor.
     */
    method UnlinkPeer(n: Node<Peer>, ghost N: seq<Node<Peer>>, ghost i: nat, ghost j: nat) returns (next: Node?<Peer>)
      requires PeersValid() && j < |peers.nodes| && peers.nodes[j] == n
      requires i <= |N| && peers.nodes[j..] == N[i..]
      modifies peers, peers.Repr
      ensures PeersValid()
      ensures peers.nodes == Without(old(peers.nodes), j)
      ensures peers.nodes[j..] == N[i + 1..]
      ensures Table() == Without(old(Table()), j)
      ensures next == if j < |peers.nodes| then peers.nodes[j] else null
      ensures peers.Repr <= old(peers.Repr)
    {
      FirstIndexOfDistinct(peers.nodes, j);
      ghost var items := peers.Items();
      ghost var ns := peers.nodes;
      next := peers.Unlink(n);
      DistinctWithout(items, j);
      SuffixAfterRemove(ns, N, j, i);
    }

    /**
     * The peer sweep of Update: every peer's time goes up by one, and the
     * peers whose time reaches PEER_TIMEOUT are unlinked, first to last.
     */
    method SweepPeers()
      requires PeersValid()
      modifies peers, peers.Repr, peers.Items()
      ensures PeersValid()
      ensures Table() == Age(old(Table()))
    {
      ghost var T := Table();
      ghost var N := peers.nodes;
      ghost var i: nat := 0;
      ghost var j: nat := 0;
      var current := peers.first;
      while current != null
        invariant PeersValid()
        invariant i <= |N| == |T| && j <= |peers.nodes|
        invariant peers.nodes[j..] == N[i..]
        invariant current == if j < |peers.nodes| then peers.nodes[j] else null
        invariant Table() == Age(T[..i]) + T[i..]
        invariant peers.Repr <= old(peers.Repr)
        decreases |N| - i
      {
        ItemOfNode(N, i);
        current, j := SweepOne(current, T, N, i, j);
        i := i + 1;
      }
      SweepDone(T, i);
    }

    /**
     * One pass of the sweep loop, at position `i` of the table `T` it
     * started from and `j` of the list as it is now.
     */
    method SweepOne(current: Node<Peer>, ghost T: seq<PeerRec>, ghost N: seq<Node<Peer>>, ghost i: nat, ghost j: nat)
      returns (next: Node?<Peer>, ghost j': nat)
      requires PeersValid()
      requires i < |N| == |T| && j < |peers.nodes|
      requires peers.nodes[j..] == N[i..] && current == peers.nodes[j]
      requires Table() == Age(T[..i]) + T[i..]
      modifies peers, peers.Repr, current.item
      ensures PeersValid()
      ensures j' <= |peers.nodes| && peers.nodes[j'..] == N[i + 1..]
      ensures next == if j' < |peers.nodes| then peers.nodes[j'] else null
      ensures Table() == Age(T[..i + 1]) + T[i + 1..]
      ensures peers.Repr <= old(peers.Repr)
    {
      assert |peers.nodes[j..]| == |N[i..]|;
      assert (Age(T[..i]) + T[i..])[j] == T[i];
      SweepStep(T, i);
      TickPeer(current, j);
      assert Table() == (Age(T[..i]) + T[i..])[j := T[i].(time := T[i].time + 1)];
      next, j' := RetireOrPass(current, T, N, i, j);
    }

    /**
     * The second half of a pass of the sweep loop: the peer at position
     * `j`, already one sweep older, is unlinked if its time has reached
     * PEER_TIMEOUT, and passed over otherwise.
     */
    method RetireOrPass(current: Node<Peer>, ghost T: seq<PeerRec>, ghost N: seq<Node<Peer>>, ghost i: nat, ghost j: nat)
      returns (next: Node?<Peer>, ghost j': nat)
      requires PeersValid()
      requires i < |N| == |T| && j < |peers.nodes|
      requires peers.nodes[j..] == N[i..] && current == peers.nodes[j]
      requires current.item.time == T[i].time + 1
      requires T[i].time + 1 >= PEER_TIMEOUT ==> Without(Table(), j) == Age(T[..i + 1]) + T[i + 1..]
      requires T[i].time + 1 < PEER_TIMEOUT ==> Table() == Age(T[..i + 1]) + T[i + 1..]
      modifies peers, peers.Repr
      ensures PeersValid()
      ensures j' <= |peers.nodes| && peers.nodes[j'..] == N[i + 1..]
      ensures next == if j' < |peers.nodes| then peers.nodes[j'] else null
      ensures Table() == Age(T[..i + 1]) + T[i + 1..]
      ensures peers.Repr <= old(peers.Repr)
    {
      if current.item.time >= PEER_TIMEOUT {
        next := UnlinkPeer(current, N, i, j);
        j' := j;
      } else {
        assert current.next == if j + 1 < |peers.nodes| then peers.nodes[j + 1] else null;
        SuffixAfterStep(peers.nodes, N, j, i);
        next := current.next;
        j' := j + 1;
      }
    }

    /** The peer of the node at position `j` of the list is one sweep older; nothing else changes. */
    method TickPeer(current: Node<Peer>, ghost j: nat)
      requires PeersValid() && j < |peers.nodes| && current == peers.nodes[j]
      modifies current.item
      ensures PeersValid()
      ensures j < |old(Table())|
      ensures Table() == old(Table())[j := old(Table())[j].(time := old(Table())[j].time + 1)]
      ensures current.item.time == old(Table())[j].time + 1
    {
      assert peers.Items()[j] == current.item;
      SetTime(current.item, j, current.item.time + 1);
    }

    /** Find with FindStream: the first Message of `h`'s stream in the assembly list, or null. */
    method FindMessage(h: Header) returns (s: Message?)
      requires MessagesValid()
      ensures s == null <==> FindIndex(Store(), h) == |Store()|
      ensures s != null ==> s == assemblyList.Items()[FindIndex(Store(), h)]
    {
      var current := assemblyList.first;
      ghost var k: nat := 0;
      while current != null
        invariant k <= |assemblyList.nodes|
        invariant current == if k < |assemblyList.nodes| then assemblyList.nodes[k] else null
        invariant forall j :: 0 <= j < k ==> !FindStream(Store()[j], h)
        decreases |assemblyList.nodes| - k
      {
        if FindStream(current.item.State(), h) {
          assert assemblyList.Items()[k] == current.item && FindStream(Store()[k], h);
          return current.item;
        }
        current := current.next;
        k := k + 1;
      }
      return null;
    }

    /**
     * The Message a frame with header `h` joins: the one found, or a new
     * one appended to the assembly list.
     */
    method JoinStream(h: Header) returns (s: Message, ghost k: nat)
      requires MessagesValid()
      modifies assemblyList, assemblyList.Repr
      ensures MessagesValid()
      ensures k == FindIndex(old(Store()), h)
      ensures Store() == if k < |old(Store())| then old(Store()) else old(Store()) + [Fresh(h)]
      ensures k < |assemblyList.Items()| && s == assemblyList.Items()[k]
      ensures s.State() == Current(old(Store()), h)
      ensures k < |old(Store())| ==> s == old(assemblyList.Items())[k]
      ensures k == |old(Store())| ==> fresh(s)
      ensures unchanged(peers, peers.Repr) && unchanged(peers.Items())
      ensures fresh(assemblyList.Repr - old(assemblyList.Repr))
    {
      var found := FindMessage(h);
      k := FindIndex(Store(), h);
      if found != null {
        return found, k;
      }
      s := AppendMessage(h);
    }

    /** A new Message for `h`, appended to the assembly list. */
    method AppendMessage(h: Header) returns (s: Message)
      requires MessagesValid()
      modifies assemblyList, assemblyList.Repr
      ensures MessagesValid()
      ensures Store() == old(Store()) + [Fresh(h)]
      ensures fresh(s) && assemblyList.Items() == old(assemblyList.Items()) + [s]
      ensures unchanged(peers, peers.Repr) && unchanged(peers.Items())
      ensures fresh(assemblyList.Repr - old(assemblyList.Repr))
    {
      s := new Message(h);
      ghost var ms := assemblyList.Items();
      assemblyList.Add(s);
      assert assemblyList.Items() == ms + [s];
    }

    /** Message::AddPart on the Message at position `k` of the assembly list; no other Message changes. */
    method AddPartAt(s: Message, ghost k: nat, payload: seq<u8>, partNum: u7, moreParts: bool)
      requires MessagesValid() && k < |assemblyList.Items()| && s == assemblyList.Items()[k]
      requires Offset(partNum) + |payload| <= 255
      modifies s
      ensures MessagesValid()
      ensures Store() == old(Store())[k := old(s.State()).AddPart(payload, partNum, moreParts)]
      ensures unchanged(peers, peers.Repr) && unchanged(peers.Items())
    {
      s.AddPart(payload, partNum, moreParts);
      assert forall i :: 0 <= i < |assemblyList.Items()| && i != k ==> assemblyList.Items()[i] != s;
    }

    /** Remove(T*): unlinks the Message at position `k` of the assembly list. */
    method UnlinkMessage(s: Message, ghost k: nat)
      requires MessagesValid() && k < |assemblyList.Items()| && s == assemblyList.Items()[k]
      modifies assemblyList, assemblyList.Repr
      ensures MessagesValid()
      ensures Store() == Without(old(Store()), k)
    {
      ghost var ms := assemblyList.Items();
      FirstIndexOfDistinct(ms, k);
      assemblyList.RemoveItem(s);
      DistinctWithout(ms, k);
      assert assemblyList.Items() == Without(ms, k);
    }

    /**
     * HandlePacket: a runt is dropped; a frame is added to its stream's
     * Message, and a Message that is then done is handed on (see Handed)
     * and unlinked.
     */
    method HandlePacket(p: Packet)
      requires Valid() && Receivable(p)
      modifies this`events, peers, peers.Repr, peers.Items(), assemblyList, assemblyList.Repr, assemblyList.Items()
      ensures Valid()
      ensures var o := Receive(old(Store()), p);
        && Store() == o.store
        && (o.completed.None? ==> Table() == old(Table()) && events == old(events))
        && (o.completed.Some? ==>
              && p.Frame?
              && Handed(old(Table()), old(events), p.header.msgType, o.completed.value) == Handing(Table(), events))
    {
      if p.Runt? {
        return;
      }
      var h := p.header;
      ghost var store, table := Store(), Table();
      var s, k := AddToStream(h, p.payload);
      assert Table() == table;
      if s.State().IsDone() {
        ghost var m := s.State();
        PutDrop(store, k, m);
        Complete(s, k, h.msgType);
        assert Handing(Table(), events) == Handed(table, old(events), h.msgType, m);
      }
    }

    /**
     * The first half of HandlePacket for a frame with header `h`: its
     * fragment is added to the Message of its stream, which is appended
     * to the assembly list first when there is none.
     */
    method AddToStream(h: Header, payload: seq<u8>) returns (s: Message, ghost k: nat)
      requires MessagesValid() && Offset(h.splitPart) + |payload| <= 255
      modifies assemblyList, assemblyList.Repr, assemblyList.Items()
      ensures MessagesValid()
      ensures unchanged(peers, peers.Repr) && unchanged(peers.Items())
      ensures fresh(assemblyList.Repr - old(assemblyList.Repr))
      ensures k == FindIndex(old(Store()), h) && k < |assemblyList.Items()| && s == assemblyList.Items()[k]
      ensures s.State() == Current(old(Store()), h).AddPart(payload, h.splitPart, h.splitMore)
      ensures Store() == Put(old(Store()), k, s.State())
    {
      ghost var store := Store();
      s, k := JoinStream(h);
      ghost var m := Current(store, h).AddPart(payload, h.splitPart, h.splitMore);
      AddPartAt(s, k, payload, h.splitPart, h.splitMore);
      JoinPut(store, k, Fresh(h), m);
    }

    /**
     * The end of HandlePacket for a Message that is done, at position `k`
     * of the assembly list: it is handed on, then unlinked.
     */
    method Complete(s: Message, ghost k: nat, msgType: u8)
      requires Valid() && k < |assemblyList.Items()| && s == assemblyList.Items()[k]
      modifies this`events, peers, peers.Repr, peers.Items(), assemblyList, assemblyList.Repr
      ensures Valid()
      ensures Store() == Without(old(Store()), k)
      ensures Handing(Table(), events) == Handed(old(Table()), old(events), msgType, old(s.State()))
    {
      Dispatch(s, msgType);
      ghost var handed := Handing(Table(), events);
      UnlinkMessage(s, k);
      assert Handing(Table(), events) == handed;
    }

    /** The switch of HandlePacket on the type of the frame that completed `s`. */
    method Dispatch(s: Message, msgType: u8)
      requires PeersValid()
      modifies this`events, peers, peers.Repr, peers.Items()
      ensures PeersValid()
      ensures unchanged(assemblyList, assemblyList.Repr, s)
      ensures unchanged(assemblyList.Items())
      ensures Handing(Table(), events) == Handed(old(Table()), old(events), msgType, s.State())
    {
      if msgType == TYPE_PEER_DISCOVERY {
        HandlePeerDiscovery(s.header, s.data);
      } else {
        events := events + [OnMessage(s.header, s.data)];
      }
    }

    /**
     * SendMessage: takes the next message id and writes the frames of
     * `data` one by one to the node's pipe, or to the broadcast group's.
     */
    method SendMessage(to: u32, msgType: u8, data: seq<u8>, isBroadcast: bool)
      requires |data| <= 255
      modifies this`currentMsgId, this`sent
      ensures currentMsgId == (old(currentMsgId) + 1) % 256
      ensures sent == old(sent) + Sends(if isBroadcast then ToBroadcast(to) else ToAddress(to),
                                        Plan(address, msgType, old(currentMsgId), data))
    {
      var template := Template(address, msgType, currentMsgId);
      currentMsgId := (currentMsgId + 1) % 256;
      var pipe := if isBroadcast then ToBroadcast(to) else ToAddress(to);
      ghost var plan := Plan(address, msgType, template.msgId, data);
      var numPkts := |data| / P + 1;
      for num := 0 to numPkts
        invariant currentMsgId == (old(currentMsgId) + 1) % 256
        invariant sent == old(sent) + Sends(pipe, plan[..num])
      {
        FrameAt(template, data, num);
        var remaining := |data| - num * P;
        var frame := Frame(template.(splitPart := num, splitMore := remaining > P),
                           data[num * P .. num * P + Min(remaining, P)]);
        SendsStep(pipe, plan, num);
        sent := sent + [Transmission(pipe, frame)];
      }
      assert plan[..numPkts] == plan;
    }

    /**
     * SendPeerDiscovery: broadcasts a discovery payload whose first byte
     * is protocol version 1, followed by `fields`.
     */
    method SendPeerDiscovery(fields: seq<u8>)
      requires |fields| == DISCOVERY_SIZE - 1
      modifies this`currentMsgId, this`sent
      ensures Acceptable([1] + fields)
      ensures currentMsgId == (old(currentMsgId) + 1) % 256
      ensures sent == old(sent) + Sends(ToBroadcast(PEER_DISCOVERY),
                                        Plan(address, TYPE_PEER_DISCOVERY, old(currentMsgId), [1] + fields))
    {
      SendMessage(PEER_DISCOVERY, TYPE_PEER_DISCOVERY, [1] + fields, true);
    }

    /**
     * ChooseAddress: takes random draws until one is not the address of a
     * known peer.  `draws` are the values random(0xFFFF) returns, in order.
     */
    method ChooseAddress(draws: seq<Draw>)
      requires PeersValid()
      requires exists k :: 0 <= k < |draws| && !Known(Table(), draws[k])
      modifies this`address
      ensures !Known(Table(), address)
      ensures exists k ::
        && 0 <= k < |draws| && address == draws[k]
        && (forall i :: 0 <= i < k ==> Known(Table(), draws[i]))
    {
      var k := 0;
      while true
        invariant k < |draws|
        invariant forall i :: 0 <= i < k ==> Known(Table(), draws[i])
        decreases |draws| - k
      {
        address := draws[k];
        var peer := GetPeer(address);
        if peer == null {
          return;
        }
        k := k + 1;
      }
    }
  }
}

=== FILE: peer_table.dfy ===
/**
 * The peer table on values: what MeshBase::HandlePeerDiscovery and the
 * peer sweep of MeshBase::Update do to the list of known peers.  The
 * objects that hold this table are MeshBase.MeshBase's `peers` list and
 * its MeshBase.Peer items; their methods are proved against the functions
 * here.
 */
module PeerTable {
  import opened Wire

  /** A known peer: its address and the sweeps since it was last heard from. */
  datatype PeerRec = PeerRec(address: u32, time: nat)

  /**
   * Position of the first peer with address `a` (GetPeer), or `|table|`.
   * GetPeer, GetItem and Find are three separate searches in the source,
   * each with its own test; each is modelled by its own function.
   */
  function Lookup(table: seq<PeerRec>, a: u32): (k: nat)
    ensures k <= |table|
    ensures k < |table| ==> table[k].address == a
    ensures forall j :: 0 <= j < k ==> table[j].address != a
  {
    if table == [] then 0
    else if table[0].address == a then 0
    else 1 + Lookup(table[1..], a)
  }

  predicate Known(table: seq<PeerRec>, a: u32)
  {
    exists i :: 0 <= i < |table| && table[i].address == a
  }

  lemma LookupKnown(table: seq<PeerRec>, a: u32)
    ensures Lookup(table, a) < |table| <==> Known(table, a)
  {
  }

  /** No address occurs twice in the table. */
  predicate UniqueAddresses(table: seq<PeerRec>)
  {
    forall i, j :: 0 <= i < j < |table| ==> table[i].address != table[j].address
  }

  /** Every peer has been heard from within the last PEER_TIMEOUT sweeps. */
  predicate Recent(table: seq<PeerRec>)
  {
    forall i :: 0 <= i < |table| ==> table[i].time < PEER_TIMEOUT
  }

  /** A discovery payload the node accepts: the right size, protocol version 1 in its first byte. */
  predicate Acceptable(data: seq<u8>)
  {
    |data| == DISCOVERY_SIZE && data[0] == 1
  }

  /** The table after a discovery message, and whether the sender is a new peer. */
  datatype Discovery = Discovery(table: seq<PeerRec>, newPeer: bool)

  /**
   * HandlePeerDiscovery: a payload of the wrong size or version is
   * ignored; an unknown sender is appended with time 0 and reported; a
   * known sender has its time reset to 0.
   */
  function Discover(table: seq<PeerRec>, from: u32, data: seq<u8>): (r: Discovery)
    ensures !Acceptable(data) ==> r == Discovery(table, false)
    ensures Acceptable(data) ==> r.newPeer == !Known(table, from)
    ensures Acceptable(data) ==> Known(r.table, from)
    ensures Acceptable(data) && r.newPeer ==> r.table == table + [PeerRec(from, 0)]
    ensures Acceptable(data) && !r.newPeer ==>
      && |r.table| == |table|
      && r.table[Lookup(table, from)] == PeerRec(from, 0)
      && forall i :: 0 <= i < |table| && i != Lookup(table, from) ==> r.table[i] == table[i]
  {
    if |data| != DISCOVERY_SIZE then Discovery(table, false)
    else if data[0] != 1 then Discovery(table, false)
    else
      var k := Lookup(table, from);
      if k == |table| then
        var grown := table + [PeerRec(from, 0)];
        assert grown[|table|].address == from;
        Discovery(grown, true)
      else
        var refreshed := table[k := table[k].(time := 0)];
        assert refreshed[k].address == from;
        Discovery(refreshed, false)
  }

  /** Hearing from an unknown peer appends it with time 0. */
  lemma DiscoverUnknown(table: seq<PeerRec>, from: u32, data: seq<u8>)
    requires Acceptable(data) && !Known(table, from)
    ensures Discover(table, from, data) == Discovery(table + [PeerRec(from, 0)], true)
  {
  }

  /** Hearing again from a known peer resets its time in place. */
  lemma DiscoverKnown(table: seq<PeerRec>, from: u32, data: seq<u8>)
    requires Acceptable(data) && Lookup(table, from) < |table|
    ensures Discover(table, from, data) ==
      Discovery(table[Lookup(table, from) := PeerRec(from, 0)], false)
  {
    var k := Lookup(table, from);
    var r := Discover(table, from, data);
    assert r.table == table[k := PeerRec(from, 0)];
  }

  /** One peer in the sweep: its time goes up by one, and it is dropped once that reaches PEER_TIMEOUT. */
  function AgeOne(p: PeerRec): seq<PeerRec>
  {
    if p.time + 1 >= PEER_TIMEOUT then [] else [p.(time := p.time + 1)]
  }

  /**
   * One peer in one sweep: it stays, one sweep older, exactly when that
   * keeps it under PEER_TIMEOUT; otherwise it is gone.
   */
  lemma AgeOneSteps(p: PeerRec)
    ensures |AgeOne(p)| <= 1 && Recent(AgeOne(p))
    ensures AgeOne(p) != [] <==> p.time + 1 < PEER_TIMEOUT
    ensures forall i :: 0 <= i < |AgeOne(p)| ==>
      AgeOne(p)[i].address == p.address && AgeOne(p)[i].time == p.time + 1
  {
  }

  /** The peer sweep of Update, peer by peer from first to last. */
  function Age(table: seq<PeerRec>): (r: seq<PeerRec>)
    ensures |r| <= |table|
    ensures Recent(r)
  {
    if table == [] then [] else AgeOne(table[0]) + Age(table[1..])
  }

  lemma {:induction false} AgeAppend(a: seq<PeerRec>, b: seq<PeerRec>)
    ensures Age(a + b) == Age(a) + Age(b)
  {
    if a == [] {
      assert a + b == b;
    } else {
      assert (a + b)[1..] == a[1..] + b;
      AgeAppend(a[1..], b);
    }
  }

  /**
   * A peer is in the table after the sweep exactly when it was before and
   * had been silent for fewer than PEER_TIMEOUT - 1 sweeps; it comes out
   * one sweep older.
   */
  lemma {:induction false} AgeMembers(table: seq<PeerRec>, p: PeerRec)
    ensures p in Age(table) <==>
      exists q :: q in table && q.time + 1 < PEER_TIMEOUT && p == q.(time := q.time + 1)
  {
    if table != [] {
      AgeMembers(table[1..], p);
      assert table == [table[0]] + table[1..];
      forall q | q in table
        ensures q == table[0] || q in table[1..]
      {
      }
    }
  }

  /** The sweep keeps the surviving peers in order, and each address once. */
  lemma {:induction false} AgeUnique(table: seq<PeerRec>)
    requires UniqueAddresses(table)
    ensures UniqueAddresses(Age(table))
  {
    if table != [] {
      AgeUnique(table[1..]);
      var rest := Age(table[1..]);
      forall q | q in rest
        ensures q.address != table[0].address
      {
        AgeMembers(table[1..], q);
        var q0 :| q0 in table[1..] && q0.time + 1 < PEER_TIMEOUT && q == q0.(time := q0.time + 1);
        var j :| 0 <= j < |table[1..]| && table[1..][j] == q0;
        assert table[j + 1] == q0;
      }
      var r := AgeOne(table[0]) + rest;
      if AgeOne(table[0]) != [] {
        forall i, j | 0 <= i < j < |r|
          ensures r[i].address != r[j].address
        {
          if i == 0 {
            assert r[j] == rest[j - 1];
          } else {
            assert r[i] == rest[i - 1] && r[j] == rest[j - 1];
          }
        }
      } else {
        assert r == rest;
      }
    }
  }

  /** Discovery keeps each address once and every peer fresh. */
  lemma DiscoverKeeps(table: seq<PeerRec>, from: u32, data: seq<u8>)
    requires UniqueAddresses(table) && Recent(table)
    ensures UniqueAddresses(Discover(table, from, data).table)
    ensures Recent(Discover(table, from, data).table)
  {
    var r := Discover(table, from, data);
    if Acceptable(data) && r.newPeer {
      assert !Known(table, from);
      forall i, j | 0 <= i < j < |r.table|
        ensures r.table[i].address != r.table[j].address
      {
        if j == |table| {
          assert r.table[i] == table[i];
        }
      }
    }
  }

  /** Two sweeps with no discovery in between drop every peer. */
  lemma {:induction false} SilentTwice(table: seq<PeerRec>)
    ensures Age(Age(table)) == []
  {
    if Age(Age(table)) != [] {
      var p := Age(Age(table))[0];
      AgeMembers(Age(table), p);
      var q :| q in Age(table) && q.time + 1 < PEER_TIMEOUT && p == q.(time := q.time + 1);
      AgeMembers(table, q);
      assert false;
    }
  }

  /**
   * A peer just heard from survives the next sweep, one sweep older, and
   * is dropped by the sweep after it unless heard from again.
   */
  lemma HeardSurvivesOneSweep(table: seq<PeerRec>, from: u32, data: seq<u8>)
    requires Acceptable(data)
    ensures PeerRec(from, 1) in Age(Discover(table, from, data).table)
    ensures Age(Age(Discover(table, from, data).table)) == []
  {
    var r := Discover(table, from, data);
    var k := if r.newPeer then |table| else Lookup(table, from);
    assert r.table[k] == PeerRec(from, 0);
    AgeMembers(r.table, PeerRec(from, 1));
    SilentTwice(r.table);
  }
}

=== FILE: reassembly.dfy ===
/**
 * The receiver's side of fragmentation, on values: a Message under
 * reassembly (MeshBase::Message), FindStream, Message::AddPart,
 * Message::IsDone, and the effect of one frame on the assembly list
 * (the bookkeeping half of MeshBase::HandlePacket).  The objects that hold
 * these values are MeshBase.Message and MeshBase.MeshBase.
 */
module Reassembly {
  import opened Wire
  import opened Fragmenter

  function Max(a: int, b: int): int { if a < b then b else a }

  /** `n` zero bytes: what the model puts in buffer bytes no fragment has written yet. */
  function Zeros(n: nat): (r: seq<u8>)
    ensures |r| == n
    ensures forall i :: 0 <= i < n ==> r[i] == 0
  {
    seq(n, _ => 0)
  }

  /**
   * `buf` grown to cover `start + |payload|` bytes and `payload` copied in
   * at `start` (the realloc and memcpy of AddPart).
   */
  function Write(buf: seq<u8>, start: nat, payload: seq<u8>): (r: seq<u8>)
    ensures |r| == Max(|buf|, start + |payload|)
    ensures forall i :: 0 <= i < |payload| ==> r[start + i] == payload[i]
    ensures forall i :: 0 <= i < |r| && !(start <= i < start + |payload|) ==>
      r[i] == if i < |buf| then buf[i] else 0
  {
    var grown := if start + |payload| > |buf| then buf + Zeros(start + |payload| - |buf|) else buf;
    grown[..start] + payload + grown[start + |payload|..]
  }

  /**
   * A Message under reassembly: the header of the first fragment seen
   * (updated by the terminal one), the buffer, whose length is data_used,
   * and the number of fragments received.
   */
  datatype MessageState = MessageState(header: Header, data: seq<u8>, blocksReceived: nat)
  {
    /**
     * Complete once the terminal fragment has been seen and more fragments
     * have arrived than its split_part.  A count, not a bitmap.
     */
    predicate IsDone()
    {
      !header.splitMore && blocksReceived > header.splitPart
    }

    /**
     * Fragment `partNum` with `payload`: its bytes land at `partNum * P`,
     * the buffer grows to the furthest byte written so far, every fragment
     * counts once, and only a terminal fragment rewrites the header.
     * The offsets are 8-bit in the source, hence the bound.
     */
    function AddPart(payload: seq<u8>, partNum: u7, moreParts: bool): (r: MessageState)
      requires Offset(partNum) + |payload| <= 255
      ensures |r.data| == Max(|data|, Offset(partNum) + |payload|)
      ensures forall i :: 0 <= i < |payload| ==> r.data[Offset(partNum) + i] == payload[i]
      ensures forall i :: 0 <= i < |data| && !(Offset(partNum) <= i < Offset(partNum) + |payload|) ==>
        r.data[i] == data[i]
      ensures r.blocksReceived == blocksReceived + 1
      ensures moreParts ==> r.header == header
      ensures !moreParts ==> r.header == header.(splitMore := false, splitPart := partNum)
    {
      var buf := Write(data, Offset(partNum), payload);
      assert forall i :: 0 <= i < |data| && !(Offset(partNum) <= i < Offset(partNum) + |payload|) ==>
        buf[i] == data[i];
      MessageState(
        if moreParts then header else header.(splitMore := false, splitPart := partNum),
        buf,
        blocksReceived + 1)
    }
  }

  /**
   * The Message a fresh stream starts from (`new Message(*header)`): the
   * frame's header, no data, no fragments.  It belongs to the frame's
   * stream and is not done.
   */
  function Fresh(h: Header): (m: MessageState)
    ensures FindStream(m, h) && !m.IsDone()
    ensures m.data == [] && m.blocksReceived == 0
  {
    MessageState(h, [], 0)
  }

  /** FindStream: `m` is the stream `h` belongs to (same sender, same message id). */
  predicate FindStream(m: MessageState, h: Header)
  {
    m.header.addressFrom == h.addressFrom && m.header.msgId == h.msgId
  }

  /**
   * A Message stays in its stream: AddPart never changes the sender or the
   * message id FindStream compares.
   */
  lemma AddPartKeepsStream(m: MessageState, h: Header, payload: seq<u8>, partNum: u7, moreParts: bool)
    requires Offset(partNum) + |payload| <= 255
    ensures FindStream(m.AddPart(payload, partNum, moreParts), h) <==> FindStream(m, h)
  {
  }

  /**
   * When a fragment leaves a Message done: after a non-terminal fragment,
   * exactly when the terminal fragment numbered k came earlier and at least
   * k + 1 fragments have now arrived (so a done Message stays done); after
   * the terminal fragment numbered k, exactly when at least k fragments
   * arrived before it, whatever an earlier terminal fragment said.
   */
  lemma AddPartDone(m: MessageState, payload: seq<u8>, partNum: u7, moreParts: bool)
    requires Offset(partNum) + |payload| <= 255
    ensures var r := m.AddPart(payload, partNum, moreParts);
      && (moreParts ==>
            (r.IsDone() <==> !m.header.splitMore && m.blocksReceived >= m.header.splitPart))
      && (moreParts && m.IsDone() ==> r.IsDone())
      && (!moreParts ==> (r.IsDone() <==> m.blocksReceived >= partNum))
  {
  }

  /** The position of the first Message of `h`'s stream, or `|store|` (Find with FindStream). */
  function FindIndex(store: seq<MessageState>, h: Header): (k: nat)
    ensures k <= |store|
    ensures k < |store| ==> FindStream(store[k], h)
    ensures forall j :: 0 <= j < k ==> !FindStream(store[j], h)
  {
    if store == [] then 0
    else if FindStream(store[0], h) then 0
    else 1 + FindIndex(store[1..], h)
  }

  /** No two Messages in the assembly list belong to the same stream. */
  predicate UniqueStreams(store: seq<MessageState>)
  {
    forall i, j :: 0 <= i < j < |store| ==> !FindStream(store[i], store[j].header)
  }

  /** No Message of `h`'s stream is in `store`. */
  predicate NoStream(store: seq<MessageState>, h: Header)
  {
    forall i :: 0 <= i < |store| ==> !FindStream(store[i], h)
  }

  /** The Message a frame with header `h` joins: the one found, or a fresh one. */
  function Current(store: seq<MessageState>, h: Header): MessageState
  {
    var k := FindIndex(store, h);
    if k < |store| then store[k] else Fresh(h)
  }

  /** The assembly list after one frame, and the Message it completed, if any. */
  datatype Outcome = Outcome(store: seq<MessageState>, completed: Option<MessageState>)

  /** What `s` becomes when `m` replaces position `k`, or is appended when `k == |s|`. */
  function Put(s: seq<MessageState>, k: nat, m: MessageState): (r: seq<MessageState>)
    requires k <= |s|
  {
    if k < |s| then s[k := m] else s + [m]
  }

  /** `s` without position `k`; `s` itself when `k == |s|`. */
  function Drop(s: seq<MessageState>, k: nat): (r: seq<MessageState>)
    requires k <= |s|
  {
    if k < |s| then s[..k] + s[k + 1..] else s
  }

  /**
   * HandlePacket's bookkeeping for a frame with header `h` and `payload`:
   * the fragment is added to its stream's Message (appended first when
   * there is none); a Message that is then done leaves the list and is
   * reported.
   */
  function Accept(store: seq<MessageState>, h: Header, payload: seq<u8>): (o: Outcome)
    requires Offset(h.splitPart) + |payload| <= 255
    ensures o.completed.Some? <==> Current(store, h).AddPart(payload, h.splitPart, h.splitMore).IsDone()
    ensures o.completed.Some? ==> o.completed.value == Current(store, h).AddPart(payload, h.splitPart, h.splitMore)
  {
    var k := FindIndex(store, h);
    var m := Current(store, h).AddPart(payload, h.splitPart, h.splitMore);
    if m.IsDone() then Outcome(Drop(store, k), Some(m))
    else Outcome(Put(store, k, m), None)
  }

  /**
   * The 8-bit offsets of AddPart stay in range: the fragment ends by byte
   * 255 of its message.  A runt is always receivable.
   */
  predicate Receivable(p: Packet)
  {
    p.Frame? ==> Offset(p.header.splitPart) + |p.payload| <= 255
  }

  /** HandlePacket's bookkeeping: a frame shorter than a header is dropped. */
  function Receive(store: seq<MessageState>, p: Packet): Outcome
    requires Receivable(p)
  {
    match p
    case Runt(_) => Outcome(store, None)
    case Frame(h, payload) => Accept(store, h, payload)
  }

  /**
   * A frame shorter than a header changes nothing.  A frame leaves the
   * Messages of every other stream in place, keeps one Message per stream,
   * and completes its own stream's Message exactly when the fragment makes
   * it done; then no Message of that stream is left.
   */
  lemma ReceiveEffect(store: seq<MessageState>, p: Packet)
    requires Receivable(p) && UniqueStreams(store)
    ensures p.Runt? ==> Receive(store, p) == Outcome(store, None)
    ensures p.Frame? ==> Others(Receive(store, p).store, p.header) == Others(store, p.header)
    ensures UniqueStreams(Receive(store, p).store)
    ensures p.Frame? ==>
      var m := Current(store, p.header).AddPart(p.payload, p.header.splitPart, p.header.splitMore);
      && (Receive(store, p).completed.Some? <==> m.IsDone())
      && (Receive(store, p).completed.Some? ==>
            Receive(store, p).completed.value == m && NoStream(Receive(store, p).store, p.header))
  {
    if p.Frame? {
      AcceptKeepsOthers(store, p.header, p.payload);
      AcceptStream(store, p.header, p.payload);
    }
  }

  /** The Messages of `store` that do not belong to `h`'s stream, in order. */
  function Others(store: seq<MessageState>, h: Header): (r: seq<MessageState>)
    ensures |r| <= |store|
  {
    if store == [] then []
    else (if FindStream(store[0], h) then [] else [store[0]]) + Others(store[1..], h)
  }

  lemma {:induction false} OthersSplit(a: seq<MessageState>, b: seq<MessageState>, h: Header)
    ensures Others(a + b, h) == Others(a, h) + Others(b, h)
  {
    if a != [] {
      assert (a + b)[1..] == a[1..] + b;
      OthersSplit(a[1..], b, h);
    } else {
      assert a + b == b;
    }
  }

  /** A Message of `h`'s own stream contributes nothing to Others. */
  lemma {:induction false} OthersSkip(store: seq<MessageState>, k: nat, h: Header)
    requires k < |store| && FindStream(store[k], h)
    ensures Others(store, h) == Others(Drop(store, k), h)
  {
    var rest := [store[k]] + store[k + 1..];
    assert store == store[..k] + rest;
    assert rest[1..] == store[k + 1..];
    OthersSplit(store[..k], rest, h);
    OthersSplit(store[..k], store[k + 1..], h);
  }

  /**
   * A frame touches only its own stream: every other Message stays in the
   * list, in the same order, unchanged.
   */
  lemma AcceptKeepsOthers(store: seq<MessageState>, h: Header, payload: seq<u8>)
    requires Offset(h.splitPart) + |payload| <= 255
    ensures Others(Accept(store, h, payload).store, h) == Others(store, h)
  {
    var k := FindIndex(store, h);
    var m := Current(store, h).AddPart(payload, h.splitPart, h.splitMore);
    assert FindStream(m, h);
    if k < |store| {
      OthersSkip(store, k, h);
      if !m.IsDone() {
        OthersSkip(store[k := m], k, h);
        assert Drop(store[k := m], k) == Drop(store, k);
      }
    } else if !m.IsDone() {
      OthersSplit(store, [m], h);
      assert [m][1..] == [];
    }
  }

  /**
   * After a frame, its stream has no Message left in the list when it
   * completed, and exactly one, not done, when it did not; no stream ever
   * gets a second Message.
   */
  lemma AcceptStream(store: seq<MessageState>, h: Header, payload: seq<u8>)
    requires Offset(h.splitPart) + |payload| <= 255
    requires UniqueStreams(store)
    ensures var o := Accept(store, h, payload);
      && UniqueStreams(o.store)
      && (o.completed.Some? ==> NoStream(o.store, h))
      && (o.completed.None? ==>
            exists i :: 0 <= i < |o.store|
              && o.store[i] == Current(store, h).AddPart(payload, h.splitPart, h.splitMore)
              && !o.store[i].IsDone()
              && forall j :: 0 <= j < |o.store| && j != i ==> !FindStream(o.store[j], h))
  {
    var k := FindIndex(store, h);
    var m := Current(store, h).AddPart(payload, h.splitPart, h.splitMore);
    var o := Accept(store, h, payload);
    assert m.header.addressFrom == h.addressFrom && m.header.msgId == h.msgId;
    if k < |store| {
      forall j | 0 <= j < |store| && j != k
        ensures !FindStream(store[j], h)
      {
        if j > k {
          assert !FindStream(store[k], store[j].header);
        }
      }
    }
    if m.IsDone() {
      assert o.store == Drop(store, k);
      if k < |store| {
        assert forall j :: 0 <= j < |o.store| ==> o.store[j] == if j < k then store[j] else store[j + 1];
      }
    } else {
      assert o.store == Put(store, k, m);
      assert o.store[k] == m;
    }
  }
}

=== FILE: round_trip.dfy ===
/**
 * Sender against receiver: the frames SendMessage plans for a payload,
 * handed to HandlePacket's bookkeeping one after another, rebuild the
 * payload.
 */
module RoundTrip {
  import opened Wire
  import opened Fragmenter
  import opened Reassembly

  /** The assembly list after a run of frames, and what each frame completed. */
  datatype Trace = Trace(store: seq<MessageState>, completions: seq<Option<MessageState>>)

  predicate AllReceivable(pkts: seq<Packet>)
  {
    forall k :: 0 <= k < |pkts| ==> Receivable(pkts[k])
  }

  /** `pkts` handed to HandlePacket in order, starting from `store`. */
  function Run(store: seq<MessageState>, pkts: seq<Packet>): (r: Trace)
    requires AllReceivable(pkts)
    ensures |r.completions| == |pkts|
    decreases |pkts|
  {
    if pkts == [] then Trace(store, [])
    else
      var o := Receive(store, pkts[0]);
      var rest := Run(o.store, pkts[1..]);
      Trace(rest.store, [o.completed] + rest.completions)
  }

  /** Running `a` then `b` is running `a + b`. */
  lemma {:induction false} RunAppend(store: seq<MessageState>, a: seq<Packet>, b: seq<Packet>)
    requires AllReceivable(a) && AllReceivable(b)
    ensures AllReceivable(a + b)
    ensures Run(store, a + b) ==
      Trace(Run(Run(store, a).store, b).store, Run(store, a).completions + Run(Run(store, a).store, b).completions)
    decreases |a|
  {
    if a == [] {
      assert a + b == b;
    } else {
      assert (a + b)[1..] == a[1..] + b;
      RunAppend(Receive(store, a[0]).store, a[1..], b);
    }
  }

  function Nones(n: nat): (r: seq<Option<MessageState>>)
    ensures |r| == n && forall i :: 0 <= i < n ==> r[i] == None
  {
    seq(n, _ => None)
  }

  lemma NonesThen(n: nat, x: Option<MessageState>)
    ensures [None] + (Nones(n) + [x]) == Nones(n + 1) + [x]
  {
    var a := [None] + (Nones(n) + [x]);
    var b := Nones(n + 1) + [x];
    assert |a| == |b|;
    forall i | 0 <= i < |a|
      ensures a[i] == b[i]
    {
      if i == 0 {
      } else if i <= n {
        assert a[i] == Nones(n)[i - 1];
      }
    }
  }

  /** The frames of `plan` in the order `order` names them. */
  function Deliveries(plan: seq<Packet>, order: seq<nat>): (r: seq<Packet>)
    requires forall i :: 0 <= i < |order| ==> order[i] < |plan|
    ensures |r| == |order| && forall i :: 0 <= i < |order| ==> r[i] == plan[order[i]]
  {
    seq(|order|, i requires 0 <= i < |order| => plan[order[i]])
  }

  /** `order` lists each of `0 .. n - 1` exactly once. */
  predicate IsPermutation(order: seq<nat>, n: nat)
  {
    && |order| == n
    && (forall i :: 0 <= i < n ==> order[i] < n)
    && (forall k :: 0 <= k < n ==> k in order)
    && (forall i, j :: 0 <= i < j < n ==> order[i] != order[j])
  }

  /** Where window `k` of `data` ends. */
  function End(data: seq<u8>, k: nat): nat
    requires Offset(k) <= |data|
  {
    Min(Offset(k) + P, |data|)
  }

  /**
   * Frames `0 .. t` of `plan` carry the windows of `data` under header
   * `tmpl`, and frame `t`, the only terminal one among them, ends at the
   * end of `data`.
   */
  ghost predicate PiecesUpTo(plan: seq<Packet>, tmpl: Header, data: seq<u8>, t: nat)
  {
    && |data| <= 255 && t < |plan| && t < 0x80
    && Offset(t) <= |data| && End(data, t) == |data|
    && forall k :: 0 <= k <= t ==>
         && Offset(k) <= |data|
         && plan[k] == Frame(tmpl.(splitPart := k, splitMore := k != t), data[Offset(k) .. End(data, k)])
  }

  /** `buf` agrees with `data` on window `k`. */
  ghost predicate Holds(buf: seq<u8>, data: seq<u8>, k: nat)
  {
    && Offset(k) <= |data|
    && End(data, k) <= |buf|
    && buf[Offset(k) .. End(data, k)] == data[Offset(k) .. End(data, k)]
  }

  /**
   * `m` is the Message of a stream with header `tmpl` once the fragments
   * `D` of `0 .. t` have arrived: one block per fragment, the terminal
   * header once fragment `t` is in, the windows of `D` in its buffer.
   */
  ghost predicate Partial(m: MessageState, tmpl: Header, data: seq<u8>, t: nat, D: set<nat>)
  {
    && (forall k :: k in D ==> k <= t)
    && HeaderSoFar(m, tmpl, t, D)
    && BufferSoFar(m.data, data, D)
  }

  /** The header and block count of `m` after fragments `D` of `0 .. t`. */
  ghost predicate HeaderSoFar(m: MessageState, tmpl: Header, t: nat, D: set<nat>)
  {
    && m.header == tmpl.(splitPart := m.header.splitPart, splitMore := m.header.splitMore)
    && m.blocksReceived == |D|
    && (t in D ==> !m.header.splitMore && m.header.splitPart == t)
    && (t !in D && D != {} ==> m.header.splitMore)
  }

  /** The buffer holds the windows `D` of `data` and is no longer than `data`. */
  ghost predicate BufferSoFar(buf: seq<u8>, data: seq<u8>, D: set<nat>)
  {
    && |buf| <= |data|
    && (forall k :: k in D ==> Holds(buf, data, k))
  }

  /** Copying a piece of `data` into a buffer that agrees with `data` on `a .. b` keeps that agreement. */
  lemma WriteAgrees(buf: seq<u8>, data: seq<u8>, lo: nat, payload: seq<u8>, a: nat, b: nat)
    requires a <= b <= |buf| && b <= |data|
    requires buf[a..b] == data[a..b]
    requires lo + |payload| <= |data| && payload == data[lo .. lo + |payload|]
    ensures b <= |Write(buf, lo, payload)|
    ensures Write(buf, lo, payload)[a..b] == data[a..b]
  {
    var r := Write(buf, lo, payload);
    forall i | a <= i < b
      ensures r[i] == data[i]
    {
      if lo <= i < lo + |payload| {
        assert r[lo + (i - lo)] == payload[i - lo];
      } else {
        assert buf[a..b][i - a] == data[a..b][i - a];
      }
    }
  }

  /** Copying a piece of `data` into a buffer puts that piece in place. */
  lemma WriteCovers(buf: seq<u8>, data: seq<u8>, lo: nat, payload: seq<u8>)
    requires lo + |payload| <= |data| && payload == data[lo .. lo + |payload|]
    ensures lo + |payload| <= |Write(buf, lo, payload)|
    ensures Write(buf, lo, payload)[lo .. lo + |payload|] == data[lo .. lo + |payload|]
  {
    var r := Write(buf, lo, payload);
    forall i | lo <= i < lo + |payload|
      ensures r[i] == data[i]
    {
      assert r[lo + (i - lo)] == payload[i - lo];
    }
  }

  /** Copying window `k` of `data` into a buffer keeps the windows `D` it held and adds window `k`. */
  lemma WriteWindow(buf: seq<u8>, data: seq<u8>, D: set<nat>, k: nat)
    requires Offset(k) <= |data|
    requires forall k2 :: k2 in D ==> Holds(buf, data, k2)
    ensures forall k2 :: k2 in D + {k} ==>
      Holds(Write(buf, Offset(k), data[Offset(k) .. End(data, k)]), data, k2)
  {
    var lo := Offset(k);
    var payload := data[lo .. End(data, k)];
    forall k2 | k2 in D + {k}
      ensures Holds(Write(buf, lo, payload), data, k2)
    {
      if k2 == k {
        WriteCovers(buf, data, lo, payload);
      } else {
        WriteAgrees(buf, data, lo, payload, Offset(k2), End(data, k2));
      }
    }
  }

  /** Adding fragment `k` of the stream keeps `Partial`, with `k` now among the fragments received. */
  lemma AddFragment(m: MessageState, tmpl: Header, data: seq<u8>, t: nat, D: set<nat>, k: nat, payload: seq<u8>)
    requires Partial(m, tmpl, data, t, D)
    requires |data| <= 255 && k !in D && k <= t && k < 0x80 && Offset(k) <= |data|
    requires payload == data[Offset(k) .. End(data, k)]
    requires D == {} ==> m.header == tmpl.(splitPart := k, splitMore := k != t)
    ensures Offset(k) + |payload| <= 255
    ensures Partial(m.AddPart(payload, k, k != t), tmpl, data, t, D + {k})
  {
    HeaderStep(m, tmpl, t, D, k, payload);
    BufferStep(m.data, data, D, k);
  }

  lemma HeaderStep(m: MessageState, tmpl: Header, t: nat, D: set<nat>, k: nat, payload: seq<u8>)
    requires HeaderSoFar(m, tmpl, t, D)
    requires k !in D && k <= t && k < 0x80 && Offset(k) + |payload| <= 255
    requires D == {} ==> m.header == tmpl.(splitPart := k, splitMore := k != t)
    ensures HeaderSoFar(m.AddPart(payload, k, k != t), tmpl, t, D + {k})
  {
    assert |D + {k}| == |D| + 1;
  }

  lemma BufferStep(buf: seq<u8>, data: seq<u8>, D: set<nat>, k: nat)
    requires BufferSoFar(buf, data, D) && Offset(k) <= |data|
    ensures BufferSoFar(Write(buf, Offset(k), data[Offset(k) .. End(data, k)]), data, D + {k})
  {
    WriteWindow(buf, data, D, k);
  }

  /** A Message with fewer blocks than fragments `0 .. t`, or without the terminal one, is not done. */
  lemma NotDoneYet(m: MessageState, tmpl: Header, data: seq<u8>, t: nat, D: set<nat>)
    requires Partial(m, tmpl, data, t, D) && D != {} && |D| <= t
    ensures !m.IsDone()
  {
  }

  /** Windows `0 .. t` cover `data` when window `t` ends at its end: byte `i` lies in window `i / P`. */
  lemma {:induction false} WindowOf(data: seq<u8>, t: nat, i: nat) returns (k: nat)
    requires Offset(t) <= |data| && End(data, t) == |data| && i < |data|
    ensures k <= t && Offset(k) <= i < End(data, k)
  {
    k := i / P;
    DivP(i);
    if k > t {
      OffsetStep(t, k);
    }
  }

  /** `buf` agrees with `data` at `i` when it agrees on a window holding `i`. */
  lemma InWindow(buf: seq<u8>, data: seq<u8>, k: nat, i: nat)
    requires Holds(buf, data, k) && Offset(k) <= i < End(data, k)
    ensures i < |buf| && buf[i] == data[i]
  {
    var lo := Offset(k);
    var hi := End(data, k);
    assert buf[lo .. hi][i - lo] == data[lo .. hi][i - lo];
  }

  /** Once all of `0 .. t` have arrived, the buffer is `data`. */
  lemma AllWindows(m: MessageState, tmpl: Header, data: seq<u8>, t: nat, D: set<nat>)
    requires Partial(m, tmpl, data, t, D)
    requires Offset(t) <= |data| && End(data, t) == |data|
    requires forall k :: 0 <= k <= t ==> k in D
    ensures m.data == data
  {
    assert Holds(m.data, data, t);
    forall i | 0 <= i < |data|
      ensures m.data[i] == data[i]
    {
      var k := WindowOf(data, t, i);
      InWindow(m.data, data, k, i);
    }
  }

  /** The Message a stream with header `tmpl` completes with, after fragments `0 .. t`. */
  function Final(tmpl: Header, data: seq<u8>, t: u7): MessageState
  {
    MessageState(tmpl.(splitPart := t, splitMore := false), data, t + 1)
  }

  /**
   * A frame `p` of the stream `tmpl`, received while the list holds
   * `store0` and, once the stream has started, its Message `m` at the end:
   * the list keeps `store0` and the grown Message, which leaves when it
   * is done.
   */
  lemma ReceiveAtEnd(store0: seq<MessageState>, tmpl: Header, m: MessageState, started: bool, p: Packet)
    requires NoStream(store0, tmpl)
    requires p.Frame? && Receivable(p)
    requires p.header.addressFrom == tmpl.addressFrom && p.header.msgId == tmpl.msgId
    requires started ==> FindStream(m, tmpl)
    ensures Receive(if started then store0 + [m] else store0, p) ==
      var m' := (if started then m else Fresh(p.header)).AddPart(p.payload, p.header.splitPart, p.header.splitMore);
      if m'.IsDone() then Outcome(store0, Some(m')) else Outcome(store0 + [m'], None)
  {
    var h := p.header;
    var store := if started then store0 + [m] else store0;
    assert forall j :: 0 <= j < |store0| ==> store[j] == store0[j];
    assert forall j :: 0 <= j < |store0| ==> !FindStream(store[j], h);
    if started {
      assert FindStream(store[|store0|], h);
    }
    assert FindIndex(store, h) == |store0|;
    var m' := Current(store, h).AddPart(p.payload, h.splitPart, h.splitMore);
    if m'.IsDone() {
      assert Drop(store, |store0|) == store0;
    } else {
      assert Put(store, |store0|, m') == store0 + [m'];
    }
  }

  /** Frame `k` of the plan joins the stream's Message as `Partial` describes, and is received as `ReceiveAtEnd` says. */
  lemma DeliverOne(plan: seq<Packet>, tmpl: Header, data: seq<u8>, t: nat,
                   store0: seq<MessageState>, m: MessageState, D: set<nat>, k: nat)
    requires PiecesUpTo(plan, tmpl, data, t)
    requires NoStream(store0, tmpl)
    requires k <= t && k !in D
    requires Partial(m, tmpl, data, t, D)
    ensures Receivable(plan[k])
    ensures var cur := if D == {} then Fresh(plan[k].header) else m;
      && Partial(cur.AddPart(plan[k].payload, k, k != t), tmpl, data, t, D + {k})
      && Receive(if D == {} then store0 else store0 + [m], plan[k]) ==
           var m' := cur.AddPart(plan[k].payload, k, k != t);
           if m'.IsDone() then Outcome(store0, Some(m')) else Outcome(store0 + [m'], None)
  {
    var p := plan[k];
    assert p == Frame(tmpl.(splitPart := k, splitMore := k != t), data[Offset(k) .. End(data, k)]);
    var cur := if D == {} then Fresh(p.header) else m;
    AddFragment(cur, tmpl, data, t, D, k, p.payload);
    ReceiveAtEnd(store0, tmpl, m, D != {}, p);
  }

  /** Frames `0 .. t` of the plan are all receivable. */
  lemma PiecesReceivable(plan: seq<Packet>, tmpl: Header, data: seq<u8>, t: nat, rest: seq<nat>)
    requires PiecesUpTo(plan, tmpl, data, t)
    requires forall i :: 0 <= i < |rest| ==> rest[i] <= t
    ensures AllReceivable(Deliveries(plan, rest))
  {
    var pkts := Deliveries(plan, rest);
    forall i | 0 <= i < |rest|
      ensures Receivable(pkts[i])
    {
      var k := rest[i];
      assert plan[k] == Frame(tmpl.(splitPart := k, splitMore := k != t), data[Offset(k) .. End(data, k)]);
    }
  }

  /** One step of `Run`: the first frame, then the rest from the list it leaves. */
  lemma RunStep(store: seq<MessageState>, pkts: seq<Packet>)
    requires AllReceivable(pkts) && pkts != []
    ensures AllReceivable(pkts[1..])
    ensures var o := Receive(store, pkts[0]);
      Run(store, pkts) == Trace(Run(o.store, pkts[1..]).store, [o.completed] + Run(o.store, pkts[1..]).completions)
  {
  }

  /** The last missing fragment completes the Message with exactly `data`. */
  lemma LastFragment(m: MessageState, tmpl: Header, data: seq<u8>, t: nat, D: set<nat>)
    requires Partial(m, tmpl, data, t, D)
    requires t < 0x80 && Offset(t) <= |data| && End(data, t) == |data|
    requires forall j :: 0 <= j <= t ==> j in D
    requires |D| == t + 1
    ensures m.IsDone() && m == Final(tmpl, data, t)
  {
    AllWindows(m, tmpl, data, t, D);
    assert t in D;
  }

  /** `rest` without its head still covers, with the head added to `D`, all of `0 .. t`. */
  lemma CoverShift(D: set<nat>, rest: seq<nat>, t: nat)
    requires |rest| >= 1
    requires forall k :: 0 <= k <= t ==> k in D || k in rest
    ensures forall k :: 0 <= k <= t ==> k in D + {rest[0]} || k in rest[1..]
  {
    forall j | 0 <= j <= t
      ensures j in D + {rest[0]} || j in rest[1..]
    {
      if j !in D && j != rest[0] {
        var i :| 0 <= i < |rest| && rest[i] == j;
        assert rest[1..][i - 1] == j;
      }
    }
  }

  /**
   * What holds before frames `rest` are received: together with the
   * fragments `D` already in the stream's Message `m` (none yet when `D`
   * is empty), they are exactly `0 .. t`, each once.
   */
  ghost predicate Pending(plan: seq<Packet>, tmpl: Header, data: seq<u8>, t: nat,
                          store0: seq<MessageState>, m: MessageState, D: set<nat>, rest: seq<nat>)
  {
    && PiecesUpTo(plan, tmpl, data, t)
    && NoStream(store0, tmpl)
    && |rest| >= 1
    && (forall i :: 0 <= i < |rest| ==> rest[i] <= t && rest[i] !in D)
    && (forall i, j :: 0 <= i < j < |rest| ==> rest[i] != rest[j])
    && (forall k :: 0 <= k <= t ==> k in D || k in rest)
    && |D| + |rest| == t + 1
    && Partial(m, tmpl, data, t, D)
  }

  /**
   * Frames `rest` complete the stream on the last of them and on no other,
   * and leave the rest of the list as it was.
   */
  lemma {:induction false} DeliverRest(plan: seq<Packet>, tmpl: Header, data: seq<u8>, t: nat,
                                       store0: seq<MessageState>, m: MessageState, D: set<nat>, rest: seq<nat>)
    requires Pending(plan, tmpl, data, t, store0, m, D, rest)
    ensures AllReceivable(Deliveries(plan, rest))
    ensures Run(if D == {} then store0 else store0 + [m], Deliveries(plan, rest)) ==
      Trace(store0, Nones(|rest| - 1) + [Some(Final(tmpl, data, t))])
    decreases |rest|, 1
  {
    if |rest| == 1 {
      DeliverLast(plan, tmpl, data, t, store0, m, D, rest);
      assert Nones(0) + [Some(Final(tmpl, data, t))] == [Some(Final(tmpl, data, t))];
    } else {
      DeliverNext(plan, tmpl, data, t, store0, m, D, rest);
    }
  }

  /** The last frame completes the stream. */
  lemma DeliverLast(plan: seq<Packet>, tmpl: Header, data: seq<u8>, t: nat,
                    store0: seq<MessageState>, m: MessageState, D: set<nat>, rest: seq<nat>)
    requires Pending(plan, tmpl, data, t, store0, m, D, rest) && |rest| == 1
    ensures AllReceivable(Deliveries(plan, rest))
    ensures Run(if D == {} then store0 else store0 + [m], Deliveries(plan, rest)) ==
      Trace(store0, [Some(Final(tmpl, data, t))])
  {
    var store := if D == {} then store0 else store0 + [m];
    var pkts := Deliveries(plan, rest);
    PiecesReceivable(plan, tmpl, data, t, rest);
    RunStep(store, pkts);
    var k := rest[0];
    assert pkts[0] == plan[k];
    DeliverOne(plan, tmpl, data, t, store0, m, D, k);
    var cur := if D == {} then Fresh(plan[k].header) else m;
    var m' := cur.AddPart(plan[k].payload, k, k != t);
    var D' := D + {k};
    assert |D'| == |D| + 1;
    CoverShift(D, rest, t);
    LastFragment(m', tmpl, data, t, D');
    assert pkts[1..] == [];
  }

  /** A frame that is not the last leaves the stream pending, one frame fewer to go. */
  lemma DeliverNext(plan: seq<Packet>, tmpl: Header, data: seq<u8>, t: nat,
                    store0: seq<MessageState>, m: MessageState, D: set<nat>, rest: seq<nat>)
    requires Pending(plan, tmpl, data, t, store0, m, D, rest) && |rest| > 1
    ensures AllReceivable(Deliveries(plan, rest))
    ensures Run(if D == {} then store0 else store0 + [m], Deliveries(plan, rest)) ==
      Trace(store0, Nones(|rest| - 1) + [Some(Final(tmpl, data, t))])
    decreases |rest|, 0
  {
    var store := if D == {} then store0 else store0 + [m];
    PiecesReceivable(plan, tmpl, data, t, rest);
    var m' := StepPending(plan, tmpl, data, t, store0, m, D, rest);
    DeliverRest(plan, tmpl, data, t, store0, m', D + {rest[0]}, rest[1..]);
    RunDeliveries(store, plan, rest);
    NonesThen(|rest| - 2, Some(Final(tmpl, data, t)));
  }

  /** `Run` over `Deliveries`, one frame at a time. */
  lemma RunDeliveries(store: seq<MessageState>, plan: seq<Packet>, rest: seq<nat>)
    requires |rest| >= 1 && forall i :: 0 <= i < |rest| ==> rest[i] < |plan|
    requires AllReceivable(Deliveries(plan, rest))
    ensures Receivable(plan[rest[0]]) && AllReceivable(Deliveries(plan, rest[1..]))
    ensures var o := Receive(store, plan[rest[0]]);
      Run(store, Deliveries(plan, rest)) ==
        Trace(Run(o.store, Deliveries(plan, rest[1..])).store, [o.completed] + Run(o.store, Deliveries(plan, rest[1..])).completions)
  {
    var pkts := Deliveries(plan, rest);
    assert pkts[0] == plan[rest[0]];
    assert pkts[1..] == Deliveries(plan, rest[1..]);
    RunStep(store, pkts);
  }

  /** Receiving the first of several pending frames keeps the Message in the list, not done, and the rest pending. */
  lemma StepPending(plan: seq<Packet>, tmpl: Header, data: seq<u8>, t: nat,
                    store0: seq<MessageState>, m: MessageState, D: set<nat>, rest: seq<nat>)
    returns (m': MessageState)
    requires Pending(plan, tmpl, data, t, store0, m, D, rest) && |rest| > 1
    ensures rest[0] < |plan| && Receivable(plan[rest[0]])
    ensures Receive(if D == {} then store0 else store0 + [m], plan[rest[0]]) == Outcome(store0 + [m'], None)
    ensures D + {rest[0]} != {}
    ensures Pending(plan, tmpl, data, t, store0, m', D + {rest[0]}, rest[1..])
  {
    var k := rest[0];
    DeliverOne(plan, tmpl, data, t, store0, m, D, k);
    var cur := if D == {} then Fresh(plan[k].header) else m;
    m' := cur.AddPart(plan[k].payload, k, k != t);
    PendingNext(plan, tmpl, data, t, store0, m', D, rest);
    NotDoneYet(m', tmpl, data, t, D + {k});
  }

  /** Receiving the head of `rest` into `m'` leaves the rest pending. */
  lemma PendingNext(plan: seq<Packet>, tmpl: Header, data: seq<u8>, t: nat,
                    store0: seq<MessageState>, m': MessageState, D: set<nat>, rest: seq<nat>)
    requires |rest| > 1
    requires PiecesUpTo(plan, tmpl, data, t) && NoStream(store0, tmpl)
    requires forall i :: 0 <= i < |rest| ==> rest[i] <= t && rest[i] !in D
    requires forall i, j :: 0 <= i < j < |rest| ==> rest[i] != rest[j]
    requires forall k :: 0 <= k <= t ==> k in D || k in rest
    requires |D| + |rest| == t + 1
    requires Partial(m', tmpl, data, t, D + {rest[0]})
    ensures Pending(plan, tmpl, data, t, store0, m', D + {rest[0]}, rest[1..])
  {
    assert |D + {rest[0]}| == |D| + 1;
    CoverShift(D, rest, t);
  }

  /** Frames `0 .. t` of `plan`, delivered in the order `order`, complete the stream exactly once, at the end. */
  lemma DeliverAll(plan: seq<Packet>, tmpl: Header, data: seq<u8>, t: nat,
                   store0: seq<MessageState>, order: seq<nat>)
    requires PiecesUpTo(plan, tmpl, data, t)
    requires NoStream(store0, tmpl)
    requires IsPermutation(order, t + 1)
    ensures AllReceivable(Deliveries(plan, order))
    ensures Run(store0, Deliveries(plan, order)) == Trace(store0, Nones(t) + [Some(Final(tmpl, data, t))])
  {
    var m := Fresh(tmpl);
    assert Pending(plan, tmpl, data, t, store0, m, {}, order);
    DeliverRest(plan, tmpl, data, t, store0, m, {}, order);
  }

  /** Frames `0 .. t` of the plan for `data` match `PiecesUpTo`, `t` being the last frame when `data` does not fill it exactly. */
  lemma PlanPieces(addressFrom: u32, msgType: u8, msgId: u8, data: seq<u8>)
    requires |data| <= 255 && !FillsLastFrame(|data|)
    ensures PiecesUpTo(Plan(addressFrom, msgType, msgId, data), Template(addressFrom, msgType, msgId), data, |data| / P)
  {
    var plan := Plan(addressFrom, msgType, msgId, data);
    var t := |data| / P;
    PlanTerminal(addressFrom, msgType, msgId, data);
    FrameCountFits(|data|);
    DivP(|data|);
    forall k | 0 <= k <= t
      ensures Offset(k) <= |data|
      ensures plan[k] == Frame(Template(addressFrom, msgType, msgId).(splitPart := k, splitMore := k != t),
                               data[Offset(k) .. End(data, k)])
    {
      PlanSlice(addressFrom, msgType, msgId, data, k);
    }
  }

  /**
   * When `data` fills its last frame exactly, frames `0 .. t` of its plan,
   * `t` one short of the last, match `PiecesUpTo`, and the last frame is
   * an empty terminal one numbered `t + 1`.
   */
  lemma PlanPiecesWhole(addressFrom: u32, msgType: u8, msgId: u8, data: seq<u8>)
    requires |data| <= 255 && FillsLastFrame(|data|)
    ensures var plan := Plan(addressFrom, msgType, msgId, data);
      var t := |data| / P - 1;
      && t + 2 == |plan|
      && PiecesUpTo(plan, Template(addressFrom, msgType, msgId), data, t)
      && plan[t + 1] == Frame(Template(addressFrom, msgType, msgId).(splitPart := t + 1, splitMore := false), [])
      && Offset(t + 1) == |data|
  {
    var plan := Plan(addressFrom, msgType, msgId, data);
    var m := |data| / P;
    var t := m - 1;
    PlanWholeFrames(addressFrom, msgType, msgId, data);
    FrameCountFits(|data|);
    DivP(|data|);
    assert Offset(m) == Offset(t) + P;
    forall k | 0 <= k <= t
      ensures Offset(k) <= |data|
      ensures plan[k] == Frame(Template(addressFrom, msgType, msgId).(splitPart := k, splitMore := k != t),
                               data[Offset(k) .. End(data, k)])
    {
      PlanSlice(addressFrom, msgType, msgId, data, k);
    }
  }

  /**
   * Round trip: when `data` does not fill its last frame exactly, its
   * frames, received in any order by a node with no Message of that
   * stream, complete the stream once, on the last frame received, with
   * exactly `data`, the terminal header and one block per frame; the
   * assembly list ends as it started.
   */
  lemma RoundTripAnyOrder(addressFrom: u32, msgType: u8, msgId: u8, data: seq<u8>,
                          store0: seq<MessageState>, order: seq<nat>)
    requires |data| <= 255 && !FillsLastFrame(|data|)
    requires NoStream(store0, Template(addressFrom, msgType, msgId))
    requires IsPermutation(order, NumPackets(|data|))
    ensures var plan := Plan(addressFrom, msgType, msgId, data);
      var n := |plan|;
      && AllReceivable(Deliveries(plan, order))
      && Run(store0, Deliveries(plan, order)) ==
           Trace(store0, Nones(n - 1) + [Some(MessageState(plan[n - 1].header, data, n))])
  {
    var plan := Plan(addressFrom, msgType, msgId, data);
    var tmpl := Template(addressFrom, msgType, msgId);
    var t := |data| / P;
    PlanPieces(addressFrom, msgType, msgId, data);
    DeliverAll(plan, tmpl, data, t, store0, order);
    assert Final(tmpl, data, t) == MessageState(plan[t].header, data, t + 1);
  }

  /**
   * The Message a lone terminal frame with no payload leaves behind when its
   * stream has none: its header, a buffer of zero bytes up to the frame's
   * offset, and one block.
   */
  function Stale(h: Header): MessageState
  {
    MessageState(h, Zeros(Offset(h.splitPart)), 1)
  }

  /**
   * An empty terminal frame numbered above 0, arriving when its stream has
   * no Message, starts one that is not done and stays in the list.
   */
  lemma StaleFrame(store0: seq<MessageState>, h: Header)
    requires NoStream(store0, h)
    requires !h.splitMore && h.splitPart > 0 && Offset(h.splitPart) <= 255
    ensures AllReceivable([Frame(h, [])])
    ensures Run(store0, [Frame(h, [])]) == Trace(store0 + [Stale(h)], [None])
    ensures FindStream(Stale(h), h) && !Stale(h).IsDone()
  {
    var p := Frame(h, []);
    assert FindIndex(store0, h) == |store0|;
    var m := Fresh(h).AddPart([], h.splitPart, false);
    assert m.header == h;
    assert m.data == Zeros(Offset(h.splitPart));
    assert Receive(store0, p) == Outcome(store0 + [Stale(h)], None);
    assert [p][1..] == [];
  }

  /**
   * What a stale Message left by a P-byte message does to the next message
   * of the same sender that reuses its id (after the 8-bit counter wraps):
   * that message's first frame, a full non-terminal one, completes the
   * stale Message at once with only the first P bytes, and the stream
   * leaves the list.
   */
  lemma StaleCompletesEarly(h: Header, h2: Header, a: seq<u8>)
    requires !h.splitMore && h.splitPart == 1
    requires h2.addressFrom == h.addressFrom && h2.msgId == h.msgId
    requires h2.splitPart == 0 && h2.splitMore && |a| == P
    ensures Receivable(Frame(h2, a))
    ensures Receive([Stale(h)], Frame(h2, a)) == Outcome([], Some(MessageState(h, a, 2)))
  {
    assert Offset(1) == P;
    assert FindIndex([Stale(h)], h2) == 0;
    var m := Stale(h).AddPart(a, 0, true);
    assert m.data == a;
    assert m.IsDone();
  }

  /**
   * The same stale Message meets a message shorter than P bytes that
   * reuses its id: that message's only frame, terminal and numbered 0,
   * completes it at once, with its own bytes followed by the stale
   * buffer's unwritten tail, P bytes in all.
   */
  lemma StaleCompletesShort(h: Header, h2: Header, a: seq<u8>)
    requires !h.splitMore && h.splitPart == 1
    requires h2.addressFrom == h.addressFrom && h2.msgId == h.msgId
    requires h2.splitPart == 0 && !h2.splitMore && |a| < P
    ensures Receivable(Frame(h2, a))
    ensures Receive([Stale(h)], Frame(h2, a)) ==
      Outcome([], Some(MessageState(h.(splitPart := 0), a + Zeros(P - |a|), 2)))
  {
    assert Offset(1) == P;
    assert FindIndex([Stale(h)], h2) == 0;
    var m := Stale(h).AddPart(a, 0, false);
    assert m.data == a + Zeros(P - |a|);
    assert m.IsDone();
  }

  /**
   * When `data` fills its last frame exactly, the stream completes with
   * `data` on the last of the full frames (received in any order), and
   * the trailing empty frame, received after them, starts a new Message
   * for the same stream that is not done: it is left behind in the
   * assembly list.
   */
  lemma WholeFramesLeaveStale(addressFrom: u32, msgType: u8, msgId: u8, data: seq<u8>,
                              store0: seq<MessageState>, order: seq<nat>)
    requires |data| <= 255 && FillsLastFrame(|data|)
    requires NoStream(store0, Template(addressFrom, msgType, msgId))
    requires IsPermutation(order, NumPackets(|data|) - 1)
    ensures var plan := Plan(addressFrom, msgType, msgId, data);
      var n := |plan|;
      && n >= 2
      && var pkts := Deliveries(plan, order) + [plan[n - 1]];
      && AllReceivable(pkts)
      && Run(store0, pkts) ==
           Trace(store0 + [Stale(plan[n - 1].header)],
                 Nones(n - 2) + [Some(MessageState(plan[n - 2].header, data, n - 1)), None])
      && FindStream(Stale(plan[n - 1].header), Template(addressFrom, msgType, msgId))
      && !Stale(plan[n - 1].header).IsDone()
  {
    var plan := Plan(addressFrom, msgType, msgId, data);
    var tmpl := Template(addressFrom, msgType, msgId);
    var t := |data| / P - 1;
    PlanPiecesWhole(addressFrom, msgType, msgId, data);
    DeliverAll(plan, tmpl, data, t, store0, order);
    assert Final(tmpl, data, t) == MessageState(plan[t].header, data, t + 1);
    var last := plan[t + 1];
    StaleFrame(store0, last.header);
    RunAppend(store0, Deliveries(plan, order), [last]);
    assert Nones(t) + [Some(Final(tmpl, data, t))] + [None] == Nones(t) + [Some(Final(tmpl, data, t)), None];
  }
}

=== FILE: wire.dfy ===
/**
 * Wire-level vocabulary of the mesh protocol: integer widths, the
 * protocol constants of MeshBase.cpp, the per-frame header and what the
 * radio delivers.
 *
 * The header's bit-exact layout is not modelled: a frame is a header
 * record followed by a payload, and the header occupies `H` bytes on the
 * air.  `H` (sizeof(MessageHeader)) and `DISCOVERY_SIZE`
 * (sizeof(PeerDiscoveryMessage)) are left abstract.
 */
module Wire {

  type u7 = x: int | 0 <= x < 0x80
  type u4 = x: int | 0 <= x < 0x10
  type u8 = x: int | 0 <= x < 0x100
  type u16 = x: int | 0 <= x < 0x1_0000
  type u32 = x: int | 0 <= x < 0x1_0000_0000

  /** Largest frame the radio carries (MAX_PACKET_SIZE). */
  const MAX_PACKET_SIZE: int := 32

  /**
   * sizeof(MessageHeader).  At most 30, so that a payload of 255 bytes
   * needs at most 128 frames: the frame counter is 8 bits wide and the
   * split_part field 7 bits wide.
   */
  type HeaderSize = h: int | 0 < h <= 30 witness 8
  const H: HeaderSize

  /** Payload bytes per frame (MAX_PAYLOAD_SIZE). */
  const P: int := MAX_PACKET_SIZE - H

  /** sizeof(PeerDiscoveryMessage); its first byte is the protocol version. */
  type DiscoverySize = n: int | 0 < n < 0x100 witness 9
  const DISCOVERY_SIZE: DiscoverySize

  const PROTOCOL_VERSION: u4 := 1
  /** Message type reserved for peer discovery (type_peer_discovery). */
  const TYPE_PEER_DISCOVERY: u8 := 0
  /** Broadcast group used for discovery frames. */
  const PEER_DISCOVERY: u32 := 1
  /** Maintenance ticks after which a silent peer is dropped. */
  const PEER_TIMEOUT: nat := 2

  /** Radio pipe address of a broadcast group (TO_BROADCAST). */
  function ToBroadcast(x: u32): int { 0xBB_0000_0000 + x }

  /** Radio pipe address of a node (TO_ADDRESS). */
  function ToAddress(x: u32): int { 0xAA_0000_0000 + x }

  /**
   * Each group and each node has a pipe of its own, and no group's pipe is
   * a node's pipe.
   */
  lemma PipesDistinct(x: u32, y: u32)
    ensures ToBroadcast(x) != ToAddress(y)
    ensures ToBroadcast(x) == ToBroadcast(y) <==> x == y
    ensures ToAddress(x) == ToAddress(y) <==> x == y
  {
  }

  /** The header sent at the front of every frame. */
  datatype Header = Header(
    protocolVersion: u4,
    ttl: u4,
    msgId: u8,
    splitMore: bool,
    splitPart: u7,
    msgType: u8,
    addressFrom: u32)

  /**
   * A frame as handed to HandlePacket: either fewer bytes than a header,
   * or a header followed by the rest of the frame.
   */
  datatype Packet =
    | Runt(len: nat)
    | Frame(header: Header, payload: seq<u8>)
  {
    /** What the radio can deliver: at most MAX_PACKET_SIZE bytes in all. */
    predicate Valid()
    {
      match this
      case Runt(len) => len < H
      case Frame(_, payload) => |payload| <= P
    }

    /** Number of bytes the frame occupies on the air. */
    function Length(): nat
    {
      match this
      case Runt(len) => len
      case Frame(_, payload) => H + |payload|
    }
  }

  /** One radio write: the pipe opened for it and the frame written. */
  datatype Transmission = Transmission(pipe: int, frame: Packet)

  /** Callbacks the engine makes into the application. */
  datatype Event =
    | OnMessage(header: Header, data: seq<u8>)
    | OnNewPeer(address: u32)

  datatype Option<+T> = None | Some(value: T)
}
